=== FILE: README.md ===
# Trading bot core in Dafny

This project models the deterministic core of a Telegram trading bot. A user sends a picture
of a candlestick chart. The bot:

- checks that the picture shows a chart grid;
- finds the candles in it and rejects a picture with fewer than ten;
- draws a direction and a confidence, and derives price levels from them;
- stores the prediction and answers with a formatted summary.

Users tune the bot through inline keyboards (timeframe, indicators, sensitivity, language) and
give feedback on each prediction with buttons. Both kinds of button carry their meaning in
callback-data strings such as `timeframe_5m`, `indicator_rsi` and `feedback_12_correct`. An
offline training script prepares candle patterns, targets and sliding windows for the models.

The image processor can also turn the candles into OHLC bars (`extract_ohlc_from_candles`)
and a feature extractor can turn bars into a feature map (`extract_features`), but
`analyze_image` calls neither: it only counts the candles. Both are modelled as the
operations they are on their own.

The project is one Dafny module per source file:

- `common.dfy` (`Common`) holds the pieces the others share:
  - `Option`;
  - Python's `str.split` on one character, and its join;
  - decimal integer text, in both directions;
  - `Abs`, `Min`, `Max` and two sign facts about products of reals.
- `image_processor.dfy` (`ImageProcessor`), from `app/ml/image_processor.py`:
  - the contour filter, the colour classification and the stable sort by `x`;
  - the OHLC extraction;
  - the grid decision.

  The OpenCV stages are inputs: contours with their area and bounding box, line angles in
  degrees, and the colour image as rows of RGB pixels.
- `indicators.dfy` (`Indicators`), from `app/ml/indicators.py`: RSI with Wilder smoothing,
  SMA, EMA, the EMA series filled into an array, MACD and Bollinger bands.
- `feature_extractor.dfy` (`FeatureExtractor`), from `app/ml/feature_extractor.py`: the
  feature map and its defaults.
- `predictor.dfy` (`Predictor`), from `app/ml/predictor.py`: the price levels for a drawn
  direction and confidence, and the fallback record.
- `prediction_service.dfy` (`PredictionService`), from `app/services/prediction_service.py`:
  - the order in which `analyze_image` rejects a picture, predicts and stores;
  - the expiration and next-analysis tables;
  - the reply facts.
- `crud.dfy` (`Crud`), from `app/database/crud.py`: a `Database` class over in-memory tables
  of users, predictions and the statistics row, with the six CRUD operations.
- `settings.dfy` (`SettingsHandlers`), from `app/bot/handlers/settings.py`: callback-data
  parsing, the indicator toggle, the labels, and the four settings handlers as methods on the
  database.
- `keyboards.dfy` (`Keyboards`), from `app/bot/keyboards.py`: the indicator keyboard laid out
  two to a row, the feedback buttons and the timeframe buttons.
- `feedback.dfy` (`Feedback`), from `app/bot/handlers/feedback.py`: the feedback parse and
  handler.
- `train_model.dfy` (`TrainModel`), from `models/train_model.py`:
  - the hammer and doji columns;
  - the target rule and the available feature columns;
  - the window builder and the unshuffled 80/20 split.

Prices are `real`, pixels are `int`. The random draw of the predictor becomes an input
`Draw(direction, confidence)` with `0.6 <= confidence <= 0.9`. An exception inside
`predict` is an absent draw, which yields the fallback record. The image file's path and the
row's creation time are parameters of `AnalyzeImage`.

Where the comments in the source and the code differ, the model follows the code:

- The comment at `app/ml/image_processor.py:140` says a higher y means a lower price, but
  `extract_ohlc_from_candles` does not invert the y axis: `high = y/H` is the smallest of the
  four values and `low = (y+h)/H` the largest (`ImageProcessor.BarOrdering`).
- `volatility` in the reply is always "low", because the prediction never carries
  `features`.
- The create path of `get_or_create_user` names an undefined variable and raises. It is
  modelled as raising (`UserLookup.NameError`), and a handler that reaches it ends in
  `Outcome.Raised`.
- `create_prediction` creates a missing statistics row as `BotStatistics()` and increments
  its counters before any flush. The column default 0 applies only at insert, so the
  counters are still None and `total_predictions += 1` raises TypeError. `CreatePrediction`
  returns `Insertion.NoneCounterError` with nothing stored, and `AnalyzeImage` returns the
  service error carrying that message. The source never creates the statistics row
  elsewhere, and a new user cannot be created either, so an analysis can only be stored on a
  database that already holds a statistics row; the `Database` constructor takes one as an
  option.
- The indicator handler stores the new list before its reply joins it with `', '`. A list
  holding the None of an unknown key makes that join raise TypeError after the store: the
  handler ends in `Outcome.StoredThenRaised` with the list stored. Such a list, read back as
  the user's indicators, also makes `format_prediction_response` raise on the same join
  (`Reply.IndicatorJoinError`).

## Model

| member | source | states |
|---|---|---|
| Common.Split | app/bot/handlers/feedback.py:15 | `split('_')` yields at least one field and no field contains the separator |
| Common.SplitJoin | app/bot/handlers/feedback.py:15 | joining the fields of a split with the separator gives back the text |
| Common.JoinSplit | app/bot/handlers/feedback.py:15 | splitting a join of separator-free fields gives back the fields |
| Common.SplitFirstField | app/bot/handlers/settings.py:45 | the first field is a prefix of the text, followed by the end or by the separator |
| Common.ParseIntNatToString | app/bot/handlers/feedback.py:17 | `int()` of the decimal text of a natural number gives the number back |
| Common.FirstMatch | app/database/crud.py:63 | `.first()` is the index of the first row satisfying the filter, and None exactly when no row does |
| ImageProcessor.IsGreen | app/ml/image_processor.py:120-124 | a green pixel is never red and never grey |
| ImageProcessor.IsRed | app/ml/image_processor.py:126-130 | a red pixel is never grey |
| ImageProcessor.ColorOf | app/ml/image_processor.py:111-130 | green iff the green test holds, red iff the red test holds, unknown iff neither; the two tests never both hold |
| ImageProcessor.AspectRatioMeansTall | app/ml/image_processor.py:90-92 | the aspect-ratio test passes iff `w > 0` and `2h > 3w` |
| ImageProcessor.KeptAreWellShaped | app/ml/image_processor.py:82-113 | every kept candle has its area strictly in (50, 500), `w > 0`, `2h > 3w`, its centre inside the image and the colour of the centre pixel |
| ImageProcessor.SortByXPermutes | app/ml/image_processor.py:116 | the sort by `x` is ordered and a permutation of its input |
| ImageProcessor.SortByXStable | app/ml/image_processor.py:116 | the sort by `x` is stable: the candles with any one `x` keep their input order |
| ImageProcessor.SortByXSound | app/ml/image_processor.py:116 | the sort by `x` is ordered, a permutation, and stable: the candles with any one `x` keep their order |
| ImageProcessor.DetectCandles | app/ml/image_processor.py:71-118 | the loop returns the kept candles sorted stably by `x`; all of them are well shaped |
| ImageProcessor.ExtractOhlc | app/ml/image_processor.py:132-164 | None iff there are no candles; ZeroDivisionError iff there are candles and the height is zero; otherwise one bar per candle in order, colour copied, rows divided by the image height |
| ImageProcessor.BarOrdering | app/ml/image_processor.py:140-154 | for `h >= 0` and `H > 0`: high <= min(open, close) <= max(open, close) <= low |
| ImageProcessor.BarHighBelowLow | app/ml/image_processor.py:142-143 | for `h > 0` the high lies strictly below the low and below the body |
| ImageProcessor.BodyAssignment | app/ml/image_processor.py:146-154 | a green candle opens at 20% and closes at 80% of its height; red and unknown candles swap them |
| ImageProcessor.CountsBounded | app/ml/image_processor.py:58-65 | each angle is counted in at most one class |
| ImageProcessor.CountLines | app/ml/image_processor.py:55-65 | the counting loop returns the horizontal and vertical counts |
| ImageProcessor.DetectChartGrid | app/ml/image_processor.py:53-69 | False without lines; otherwise a chart iff at least two horizontal and two vertical lines |
| Indicators.Sma | app/ml/indicators.py:33-37 | 0 for no prices; otherwise the mean of the last min(n, `period`) prices |
| Indicators.MeanBounds | app/ml/indicators.py:36-37 | the mean lies between any lower and upper bound of the values |
| Indicators.SmaWithinWindow | app/ml/indicators.py:33-37 | the window is the last `period` prices, or all of them when fewer; the SMA lies within the bounds of the window |
| Indicators.AlphaInUnitInterval | app/ml/indicators.py:45 | `alpha = 2/(period+1)` lies in (0, 1] |
| Indicators.EmaWithinBounds | app/ml/indicators.py:69-78 | every element of the EMA series lies within the bounds of the data |
| Indicators.EmaOfConstant | app/ml/indicators.py:69-78 | the EMA series of constant data is that constant |
| Indicators.EmaSeries | app/ml/indicators.py:69-78 | a fresh array as long as the data, the first element `data[0]`, every later one `alpha*data[i] + (1-alpha)*prev` |
| Indicators.Ema | app/ml/indicators.py:40-51 | SMA fallback on short input; otherwise the last element of the EMA series; within the bounds of the prices |
| Indicators.MacdLine | app/ml/indicators.py:59-62 | the MACD line is as long as the prices |
| Indicators.Macd | app/ml/indicators.py:54-66 | (0, 0, 0) on fewer than `slow` prices; otherwise the last MACD and signal values, with histogram = macd - signal |
| Indicators.FlatPricesGiveZeroMacd | app/ml/indicators.py:54-66 | flat prices give a MACD line of zeros |
| Indicators.Deltas | app/ml/indicators.py:13 | `np.diff` has one element fewer than the prices |
| Indicators.SeedSumsNonNegative | app/ml/indicators.py:14-16 | the seed's gain and loss sums are non-negative |
| Indicators.SmoothNonNegative | app/ml/indicators.py:21-25 | one Wilder step keeps a non-negative average non-negative |
| Indicators.AveragesNonNegative | app/ml/indicators.py:13-25 | `up` and `down` stay non-negative through the smoothing loop |
| Indicators.RsiOfRange | app/ml/indicators.py:29-30 | with `down > 0` the RSI lies in [0, 100) |
| Indicators.Rsi | app/ml/indicators.py:8-30 | the loop computes the Wilder RSI; 50 on fewer than `period` prices, 100 when `down == 0`, always in [0, 100] |
| Indicators.Bollinger | app/ml/indicators.py:81-93 | middle is the SMA; the three bands coincide on short input; otherwise upper - middle = middle - lower = std * std_dev; ordered for std_dev >= 0 |
| FeatureExtractor.ComputedKeysAreNotDefaults | app/ml/feature_extractor.py:13-43 | the four computed keys are not among the default keys |
| FeatureExtractor.MergeDefaults | app/ml/feature_extractor.py:27 | after `update` every default key has its default value and the computed keys keep theirs |
| FeatureExtractor.PriceStep | app/ml/feature_extractor.py:16-18 | the price change and its percentage are present iff there are two bars, with the last close minus the previous one and that change over the previous close times 100 |
| FeatureExtractor.SmaStep | app/ml/feature_extractor.py:21-24 | the two averages are present iff there are ten bars: the mean of the last ten closes and of the last min(n, 20); the price entries are untouched |
| FeatureExtractor.MergeKeepsEntries | app/ml/feature_extractor.py:27 | merging the defaults keeps the price change and average entries |
| FeatureExtractor.ExtractFeatures | app/ml/feature_extractor.py:8-29 | None or empty input gives the defaults; ZeroDivisionError iff two bars and a zero previous close; price-change keys iff two bars; SMA keys iff ten bars, as the means of the last 10 and last min(n, 20) closes; no other keys |
| Predictor.DirectionName | app/ml/predictor.py:19-20 | the direction is one of UP, DOWN, SIDEWAYS |
| Predictor.DirectionNameInjective | app/ml/predictor.py:19-20 | distinct directions have distinct names |
| Predictor.Multiplier | app/ml/predictor.py:25-26 | the table value for the seven codes, 1.0 otherwise, always within [0.5, 4.0] |
| Predictor.MultiplierGrowsWithTimeframe | app/ml/predictor.py:25 | the multiplier grows strictly from 1m to 1d |
| Predictor.IndicatorsOrDefault | app/ml/predictor.py:57 | None or an empty list gives RSI and MACD; any other list is kept |
| Predictor.LevelsFor | app/ml/predictor.py:28-42 | support below 100, resistance above it, positive take-profit and stop-loss |
| Predictor.TrendTargetsAgree | app/ml/predictor.py:29-35 | UP and DOWN share take-profit `1.5mc` and stop-loss `0.8m(1 - 0.5c)` |
| Predictor.BandOffsets | app/ml/predictor.py:31-42 | UP's resistance offset is twice its support offset, DOWN mirrors it, SIDEWAYS is a symmetric 1%·m band |
| Predictor.Predict | app/ml/predictor.py:24-59 | direction and confidence copied; pivot the midpoint, strictly between support and resistance; risk Medium; volume 2c; timeframe, sensitivity and default indicators |
| Predictor.PivotPlacement | app/ml/predictor.py:44 | the pivot lies at 100 shifted by half the difference of the offsets |
| Predictor.Fallback | app/ml/predictor.py:61-76 | the fixed SIDEWAYS record: confidence 0.5, levels 99.5/100.5, pivot 100, tp 0.5, sl 0.3 |
| Predictor.PredictOrFallback | app/ml/predictor.py:13-76 | with no draw the fallback; either way support < pivot < resistance and risk Medium |
| PredictionService.RequestedPrediction | app/services/prediction_service.py:49-58 | missing settings give timeframe 5m, sensitivity medium and indicators RSI, MACD |
| PredictionService.AnalyzeImage | app/services/prediction_service.py:17-84 | undecodable, then not a chart, then fewer than 10 candles, then no statistics row, each an error with nothing stored; otherwise one stored row with the prediction's fields, counters raised, and the prediction returned with the row's id |
| PredictionService.ExpirationMinutes | app/services/prediction_service.py:140-146 | at least 5 minutes, 15 for an unknown code |
| PredictionService.NextAnalysisMinutes | app/services/prediction_service.py:148-154 | at least 1 minute, 5 for an unknown code |
| PredictionService.ExpirationCoversNextAnalysis | app/services/prediction_service.py:140-154 | expiration is never shorter than the next-analysis delay; an unknown code behaves like 5m in both tables and in the multiplier |
| PredictionService.TablesGrowWithTimeframe | app/services/prediction_service.py:142-153 | both tables and the multiplier grow strictly from 1m to 1d |
| PredictionService.VolatilityOf | app/services/prediction_service.py:125 | high iff above 2, medium iff in (1, 2], low iff at most 1; low when the value is missing |
| PredictionService.VolatilityMonotone | app/services/prediction_service.py:125 | the label never falls as the value grows |
| PredictionService.IdTag | app/services/prediction_service.py:105 | `#NEW` for a missing or zero id, `#<id>` otherwise |
| PredictionService.FormatPredictionResponse | app/services/prediction_service.py:86-138 | an error is passed through as it is; a prediction whose indicators hold None raises, exactly then; otherwise low volatility and the table values for the timeframe |
| Crud.TextSetting | app/services/prediction_service.py:49-51 | `settings.get(key, default)` for text values |
| Crud.IndicatorsSetting | app/bot/handlers/settings.py:73 | `settings.get('indicators', ['RSI', 'MACD'])` |
| Crud.DefaultSettingsAgreeWithFallbacks | app/database/models.py:17-23 | a new user's default settings give the same timeframe, sensitivity and indicators as the fallbacks of the readers |
| Crud.AfterPrediction | app/database/crud.py:50-55 | on an existing statistics row, total predictions and daily requests grow by one, the other counters stay |
| Crud.Accuracy | app/database/crud.py:88 | 0 without predictions or without correct ones; within [0, 100] when correct <= total |
| Crud.AccuracyBounds | app/database/crud.py:88 | `correct/total*100` lies within [0, 100] |
| Crud.BotStatistics | app/database/crud.py:83-96 | zeros and no `correct` without a statistics row; otherwise the four counters and `Accuracy` of the row, within [0, 100] when correct <= total |
| Crud.PredictionIsCounted | app/database/crud.py:50-55 | on an existing statistics row, a prediction raises the total and the daily count reported by `get_bot_statistics` by one, keeps the user count, and keeps accuracy 0 while nothing was correct |
| Crud.MergeSettings | app/database/crud.py:101 | the merged keys are the old keys and the new ones |
| Crud.MergeSettingsOverrides | app/database/crud.py:101 | new keys override, other old keys keep their values |
| Crud.MergeSettingsIdempotent | app/database/crud.py:101 | merging the same update twice is merging it once |
| Crud.SortNewestFirstSound | app/database/crud.py:81 | the order by creation time, newest first, is a permutation |
| Crud.RowsOf | app/database/crud.py:79-80 | the rows of the user, exactly |
| Crud.UserPredictions | app/database/crud.py:78-81 | exactly min(`limit`, the user's row count) rows, all of the user and drawn from the table, newest first; no row of the user left out is newer than a row kept |
| Crud.PrefixIsNewest | app/database/crud.py:80-81 | in a list ordered newest first, no row after the first `n` is newer than a row among them |
| Crud.FirstRowsSound | app/database/crud.py:81 | the first rows of an ordered list are ordered and drawn from it |
| Crud.Database.GetOrCreateUser | app/database/crud.py:6-27 | an existing user is returned and nothing changes; otherwise the create path raises |
| Crud.Database.CreatePrediction | app/database/crud.py:29-59 | raises with nothing changed iff there is no statistics row; otherwise one new row with a fresh id appended and the counters raised by AfterPrediction; users unchanged either way |
| Crud.Database.UpdatePredictionFeedback | app/database/crud.py:61-76 | None and no change for an unknown id; otherwise that row's result and note set, and `correct` raised iff a statistics row exists and the result equals the stored prediction |
| Crud.Database.GetUserPredictions | app/database/crud.py:78-81 | the `UserPredictions` of the stored table: min(`limit`, the user's row count) distinct stored rows of the user (a sub-multiset of the table), newest first, all of them when fewer than `limit`, none of the user's other rows newer than a returned one |
| Crud.Database.GetBotStatistics | app/database/crud.py:83-96 | the `BotStatistics` report of the stored statistics row: zeros and no `correct` without a row, otherwise the four counters and their accuracy |
| Crud.Database.UpdateUserSettings | app/database/crud.py:98-104 | None and no change for an unknown id; otherwise that user's settings merged with the update, nothing else changed |
| SettingsHandlers.FieldAfter | app/bot/handlers/settings.py:45 | `split('_')[1]`: the text after `<prefix>_` up to the next `_` |
| SettingsHandlers.FieldAfterRoundTrip | app/bot/handlers/settings.py:44-45 | `<prefix>_<value>` parses back to `value` |
| SettingsHandlers.Choice | app/bot/handlers/settings.py:44-45 | a choice iff the data starts with `<prefix>_`, and then the second field; the same parse serves `sensitivity_` (lines 118-119) and `language_` (lines 148-149) |
| SettingsHandlers.SensitivityLabel | app/bot/handlers/settings.py:127-134 | the name of a known code, the raw code otherwise |
| SettingsHandlers.LanguageLabel | app/bot/handlers/settings.py:157-166 | the name of a known code, the raw code otherwise |
| SettingsHandlers.LookUpIndicator | app/bot/handlers/settings.py:84-95 | the mapped name for a known key, None otherwise; every name is one of the eight |
| SettingsHandlers.Without | app/bot/handlers/settings.py:97 | every occurrence of the indicator removed, the others kept with their counts |
| SettingsHandlers.WithoutConcat | app/bot/handlers/settings.py:97 | the removal keeps the order of the others |
| SettingsHandlers.Toggle | app/bot/handlers/settings.py:96-99 | a present indicator is removed, an absent one appended |
| SettingsHandlers.ToggleTwice | app/bot/handlers/settings.py:96-99 | toggling an absent indicator twice restores the list |
| SettingsHandlers.ToggleKeepsDistinct | app/bot/handlers/settings.py:96-99 | toggling keeps a duplicate-free list duplicate-free |
| SettingsHandlers.IndicatorsChoice | app/bot/handlers/settings.py:75-99 | a new list iff the data starts with `indicator_`; `all` gives the eight names, `none` the empty list, other keys toggle the looked-up name |
| SettingsHandlers.UnknownKeyAppendsNull | app/bot/handlers/settings.py:95-99 | an unmapped key appends None, so the handler's reply raises after the store |
| SettingsHandlers.StoreSettings | app/bot/handlers/settings.py:50-51 | stored iff a user with that Telegram id exists, whose settings then take the update |
| SettingsHandlers.SetTimeframeCallback | app/bot/handlers/settings.py:39-61 | the menu and no change without `timeframe_`; otherwise it raises with no change iff the user is missing, and else merges the second field into the user's settings as the timeframe |
| SettingsHandlers.SetIndicatorsCallback | app/bot/handlers/settings.py:63-111 | raises with no change iff the user is missing; otherwise the menu and no change without `indicator_`, or the chosen list merged into the user's settings, followed by a raise iff the list holds None |
| SettingsHandlers.SetSensitivityCallback | app/bot/handlers/settings.py:113-141 | the menu and no change without `sensitivity_`; otherwise it raises with no change iff the user is missing, and else merges the second field into the user's settings as the sensitivity and answers with its label |
| SettingsHandlers.SetLanguageCallback | app/bot/handlers/settings.py:143-172 | the menu and no change without `language_`; otherwise it raises with no change iff the user is missing, and else merges the second field into the user's settings as the language and answers with its label |
| Keyboards.IndicatorButton | app/bot/keyboards.py:56-57 | the check mark iff the name is selected, and the indicator's callback data |
| Keyboards.IndicatorButtons | app/bot/keyboards.py:42-57 | one button per indicator, in order |
| Keyboards.IndicatorRows | app/bot/keyboards.py:53-60 | the rows concatenate to the buttons of the indicators in order; there are ceil(n/2) of them, all of two buttons except a last row of one when n is odd |
| Keyboards.IndicatorsKeyboard | app/bot/keyboards.py:38-68 | four rows of two whose concatenation is the indicator buttons, then the all/none row and the back row; None counts as no selection |
| Keyboards.IndicatorKeysAreMapped | app/bot/keyboards.py:43-50 | every button key is in the handler's map, under the name the button shows |
| Keyboards.IndicatorButtonTogglesItsName | app/bot/keyboards.py:43-50 | each indicator button toggles the indicator it shows |
| Keyboards.AllNoneButtonsSelectNothing | app/bot/keyboards.py:62-65 | `indicators_all` and `indicators_none` neither end in `set_indicators` nor start with `indicator_`: no registered pattern sends them to the indicator handler, and its parse would select nothing for them anyway |
| Keyboards.FeedbackCallback | app/bot/keyboards.py:91-93 | `feedback_<id>_<result>` starts with `feedback_` |
| Keyboards.FeedbackKeyboard | app/bot/keyboards.py:89-96 | the three buttons carry `feedback_<id>_correct`, `_incorrect` and `_partial` |
| Keyboards.TimeframeButtonsMatchMultiplierTable | app/bot/keyboards.py:25-36 | the buttons send `timeframe_` with exactly the seven codes of the multiplier table, each parsed back to its code |
| Feedback.ActualResult | app/bot/handlers/feedback.py:23-29 | correct, incorrect and partial map to themselves, anything else to partial |
| Feedback.ParseFeedback | app/bot/handlers/feedback.py:12-18 | not feedback iff no `feedback_` prefix; malformed iff fewer than three fields; a bad id iff `int()` fails; otherwise the id and the third field |
| Feedback.ParseFeedbackCallback | app/bot/handlers/feedback.py:15-18 | parsing the keyboard's `feedback_<id>_<result>` gives back the id and the result |
| Feedback.FeedbackButtonsRecordTheirVerdict | app/bot/handlers/feedback.py:15-29 | each feedback button records its own verdict for its own prediction |
| Feedback.VerdictIsNeverADirection | app/bot/handlers/feedback.py:23-29 | a verdict never equals a direction name |
| Feedback.FeedbackCallbackHandler | app/bot/handlers/feedback.py:7-58 | nothing changes unless the parse succeeds; then the matching row gets the verdict and the note; with only directions stored, the statistics never change |
| TrainModel.IsHammer | models/train_model.py:124-136 | 1 iff the lower shadow exceeds twice the body, the upper shadow is under 0.3 of the body and the close is above the open |
| TrainModel.HammerShape | models/train_model.py:126-133 | a hammer has a positive body, opens above its low, and with `high >= max(open, close)` has an upper shadow in [0, 0.3·body) |
| TrainModel.IsDoji | models/train_model.py:138-145 | 0 or 1, and 1 only for a positive range |
| TrainModel.DojiWithoutDivision | models/train_model.py:138-145 | doji iff the range is positive and the body is under a tenth of it |
| TrainModel.Targets | models/train_model.py:116 | 1 iff the close five rows ahead exceeds the current one; 0 for the last five rows |
| TrainModel.AvailableCols | models/train_model.py:152-159 | a column is kept iff it is a feature column present in the frame |
| TrainModel.AvailableColsConcat | models/train_model.py:159 | the kept columns keep the order of the feature list |
| TrainModel.AllColsAvailable | models/train_model.py:159 | nothing is dropped when every column exists |
| TrainModel.PrepareSequences | models/train_model.py:171-176 | max(0, n - L) windows; window k is rows k to k+L of length L, with the label of row k+L |
| TrainModel.SplitIndex | models/train_model.py:243 | `int(0.8 n)` is within the sequence and cuts at `floor(4n/5)` |
| TrainModel.TrainSize | models/train_model.py:189-191 | the test part `n - k` is `ceil(n/5)`: at least a fifth and less than a fifth plus one |
| TrainModel.SplitsAgree | models/train_model.py:189-191 | `train_test_split(test_size=0.2, shuffle=False)` cuts where the LSTM split `int(len * 0.8)` does |
| TrainModel.SplitTrainTest | models/train_model.py:243-247 | the training prefix and the test suffix give back the sequence; the test part holds about a fifth |

## Left out

- The OpenCV stages are not modelled: image decoding, histogram equalisation, filtering,
  Canny, the Hough transform, thresholding, contour finding, the contour area and the
  bounding box, and the CNN resize. Contours, line angles and pixels are inputs. A picture
  that fails to decode is an input carrying its exception message.
- The `arctan2` angle computation is not modelled. Angles in degrees are inputs.
- The hash and the `np.random` draw of the predictor are not modelled. Direction and
  confidence are inputs. In the source the seed hashes only the input array's shape, and
  `analyze_image` always passes the (1, 64, 64, 1) array of `prepare_for_cnn`, so every
  picture gets the same direction and confidence. The model admits any draw.
- `round(x, 2)` in the prediction record and the statistics is not modelled. Values are
  exact reals.
- `np.std` is not modelled. Bollinger bands take the standard deviation as a non-negative
  input.
- Floating-point effects are not modelled: NaN, infinities and rounding.
- Indicators.Sma: the `period` parameters of the indicators are required to be at least 1,
  as every default period is; nothing outside `app/ml/indicators.py` calls these functions
  with a period of its own. For a period of 0, `prices[-0:]` is
  the whole list, so `sma` and `bollinger_bands` average every price, `ema` takes
  `alpha = 2`, and `rsi` divides numpy scalars by zero and gets inf or nan. A negative
  period slices from the front. None of this is modelled.
- The image file write and the random file name in `analyze_image` are not modelled. The
  path is a parameter.
- SQLAlchemy sessions, commits and refreshes are not modelled. The tables live in memory.
- Crud.Database.CreatePrediction: after the TypeError, the prediction row and the fresh
  statistics row stay pending in the shared session, and a later commit on that session
  would write them. The model drops them.
- `created_at` is a parameter of the new row. Ties in the ordering by creation time are
  broken by insertion order, which the database does not promise.
- Crud.Database.GetUserPredictions: `limit` is a natural number; a negative SQL limit is not
  modelled.
- Crud.Database.GetOrCreateUser: the create path's insert and its `total_users` update are
  not modelled, because the path raises before reaching them.
- Settings values that are not of the type the readers expect are read as the fallback.
  The user's settings are never None: `settings or {}` is the identity here.
- Message texts, emoji and Markdown of the replies are not modelled, except the three
  error strings of the prediction service. Replies are reduced to which reply is sent and
  the facts it carries.
- Common.ParseInt: `int()` also accepts surrounding whitespace, underscores between digits
  and the decimal digits of any script, such as `٣` or `１２`. The model accepts an optional
  sign and ASCII digits only, so such ids fall on the error path.
- `format_prediction_response` text fields other than the id tag, the timeframe, the
  volatility and the two table values are not modelled.
- In `models/train_model.py`: data fetching, the pandas and talib indicator columns,
  `dropna`, scaler fitting, the sklearn and Keras training and model saving. These are
  foreign numerics and I/O.
- TrainModel.SplitIndex: `int(len * 0.8)` is computed exactly as `floor(4n/5)`; a float
  product that rounds below an integer is not modelled.

=== FILE: common.dfy ===
/** Python built-ins that the bot's string protocol relies on: `None`, `str.split` with an
    explicit separator, `str.startswith`, `str(n)` for a non-negative integer and `int(s)`. */
module Common {

  datatype Option<+T> = None | Some(value: T)

  /** A stored list of indicator names. An entry is None (JSON null) when the settings handler
      appended the lookup of an unknown key. */
  type IndicatorList = seq<Option<string>>

  /** The indicators used when none are chosen: `['RSI', 'MACD']`. */
  const DefaultIndicators: IndicatorList := [Some("RSI"), Some("MACD")]

  /** The index of the first element satisfying `p`, as a query's `.first()` finds it. */
  function FirstMatch<T>(s: seq<T>, p: T -> bool): (r: Option<nat>)
    ensures r.Some? ==> r.value < |s| && p(s[r.value])
    ensures r.Some? ==> forall j :: 0 <= j < r.value ==> !p(s[j])
    ensures r.None? <==> forall j :: 0 <= j < |s| ==> !p(s[j])
  {
    if s == [] then None
    else if p(s[0]) then Some(0)
    else match FirstMatch(s[1..], p)
      case None => None
      case Some(i) => Some(i + 1)
  }

  /** `prefix` is a prefix of `s` (Python `s.startswith(prefix)`). */
  predicate StartsWith(s: string, prefix: string) {
    |prefix| <= |s| && s[..|prefix|] == prefix
  }

  /** `suffix` is a suffix of `s` (Python `s.endswith(suffix)`). */
  predicate EndsWith(s: string, suffix: string) {
    |suffix| <= |s| && s[|s| - |suffix|..] == suffix
  }

  /** Python `s.split(sep)` for a one-character separator: never empty, and two adjacent
      separators yield an empty part between them. */
  function Split(s: string, sep: char): (parts: seq<string>)
    ensures |parts| >= 1
    ensures forall i :: 0 <= i < |parts| ==> sep !in parts[i]
    decreases |s|
  {
    if s == [] then [""]
    else
      var rest := Split(s[1..], sep);
      if s[0] == sep then [""] + rest
      else [[s[0]] + rest[0]] + rest[1..]
  }

  /** Python `sep.join(parts)`. */
  function Join(parts: seq<string>, sep: char): string
    requires |parts| >= 1
  {
    if |parts| == 1 then parts[0] else parts[0] + [sep] + Join(parts[1..], sep)
  }

  lemma {:induction false} SplitNoSeparator(s: string, sep: char)
    requires sep !in s
    ensures Split(s, sep) == [s]
    decreases |s|
  {
    if s != [] {
      SplitNoSeparator(s[1..], sep);
      assert [s[0]] + s[1..] == s;
    }
  }

  lemma {:induction false} SplitAfterField(a: string, sep: char, tail: string)
    requires sep !in a
    ensures Split(a + [sep] + tail, sep) == [a] + Split(tail, sep)
    decreases |a|
  {
    var s := a + [sep] + tail;
    if a == [] {
      assert s[0] == sep && s[1..] == tail;
    } else {
      assert s[0] == a[0] && s[1..] == a[1..] + [sep] + tail;
      SplitAfterField(a[1..], sep, tail);
      assert [a[0]] + a[1..] == a;
    }
  }

  /** Callback data `<prefix><sep><rest>` splits into the prefix and the fields of the rest. */
  lemma SplitPrefixed(prefix: string, sep: char, data: string)
    requires sep !in prefix && StartsWith(data, prefix + [sep])
    ensures Split(data, sep) == [prefix] + Split(data[|prefix| + 1..], sep)
  {
    assert data == prefix + [sep] + data[|prefix| + 1..];
    SplitAfterField(prefix, sep, data[|prefix| + 1..]);
  }

  /** The first field is the longest prefix without a separator. */
  lemma {:induction false} SplitFirstField(s: string, sep: char)
    ensures var f := Split(s, sep)[0];
      StartsWith(s, f) && (|f| == |s| || s[|f|] == sep)
    decreases |s|
  {
    if s != [] && s[0] != sep {
      SplitFirstField(s[1..], sep);
    }
  }

  /** Splitting undoes joining, when no part contains the separator. */
  lemma {:induction false} SplitJoin(parts: seq<string>, sep: char)
    requires |parts| >= 1
    requires forall i :: 0 <= i < |parts| ==> sep !in parts[i]
    ensures Split(Join(parts, sep), sep) == parts
    decreases |parts|
  {
    if |parts| == 1 {
      SplitNoSeparator(parts[0], sep);
    } else {
      SplitAfterField(parts[0], sep, Join(parts[1..], sep));
      SplitJoin(parts[1..], sep);
      assert [parts[0]] + parts[1..] == parts;
    }
  }

  /** Joining undoes splitting, for every string. */
  lemma {:induction false} JoinSplit(s: string, sep: char)
    ensures Join(Split(s, sep), sep) == s
    decreases |s|
  {
    if s != [] {
      JoinSplit(s[1..], sep);
      var rest := Split(s[1..], sep);
      if s[0] != sep && |rest| > 1 {
        assert Join(rest, sep) == rest[0] + [sep] + Join(rest[1..], sep);
        assert ([s[0]] + rest[0]) + [sep] + Join(rest[1..], sep) == [s[0]] + Join(rest, sep);
      }
      assert [s[0]] + s[1..] == s;
    }
  }

  predicate IsDigit(c: char) { '0' <= c <= '9' }

  predicate IsDigits(s: string) {
    |s| > 0 && forall i :: 0 <= i < |s| ==> IsDigit(s[i])
  }

  function DigitValue(c: char): nat
    requires IsDigit(c)
  {
    c as int - '0' as int
  }

  /** The value of a string of decimal digits (leading zeros allowed, as Python's `int` does). */
  function DigitsValue(s: string): nat
    requires forall i :: 0 <= i < |s| ==> IsDigit(s[i])
  {
    if s == [] then 0 else DigitsValue(s[..|s| - 1]) * 10 + DigitValue(s[|s| - 1])
  }

  /** Python `str(n)` for `n >= 0`. */
  function NatToString(n: nat): (s: string)
    ensures IsDigits(s)
  {
    if n < 10 then ['0' + n as char] else NatToString(n / 10) + ['0' + (n % 10) as char]
  }

  /** Python `int(s)` restricted to ASCII: an optional sign followed by at least one ASCII
      digit gives a number. Everything else is None here, although `int` also accepts
      surrounding white space, underscores between digits and the decimal digits of other
      scripts. */
  function ParseInt(s: string): (r: Option<int>)
    ensures r.Some? ==> |s| > 0 && (IsDigits(s) || IsDigits(s[1..]))
  {
    if |s| > 0 && (s[0] == '-' || s[0] == '+') && IsDigits(s[1..]) then
      var magnitude: int := DigitsValue(s[1..]);
      Some(if s[0] == '-' then -magnitude else magnitude)
    else if IsDigits(s) then Some(DigitsValue(s))
    else None
  }

  lemma {:induction false} DigitsValueOfNatToString(n: nat)
    ensures DigitsValue(NatToString(n)) == n
  {
    var s := NatToString(n);
    if n >= 10 {
      DigitsValueOfNatToString(n / 10);
      assert s[..|s| - 1] == NatToString(n / 10);
    }
  }

  /** `int(str(n)) == n` for every id the bot formats. */
  lemma ParseIntNatToString(n: nat)
    ensures ParseInt(NatToString(n)) == Some(n)
  {
    DigitsValueOfNatToString(n);
  }

  // ---------------------------------------------------------------- reals

  function Abs(a: real): real { if a < 0.0 then -a else a }
  function Min(a: real, b: real): real { if a <= b then a else b }
  function Max(a: real, b: real): real { if a <= b then b else a }


  lemma ProductPositive(a: real, b: real)
    requires a > 0.0 && b > 0.0
    ensures a * b > 0.0
  {
  }

  lemma ProductNonNegative(a: real, b: real)
    requires a >= 0.0 && b >= 0.0
    ensures a * b >= 0.0
  {
  }
}

=== FILE: crud.dfy ===
/** The database helpers of app/database/crud.py over in-memory tables. SQLAlchemy, sessions
    and commits are not modelled: each helper's effect on the tables is atomic. */
module Crud {
  import opened Common

  /** A JSON value stored in a user's settings. */
  datatype SettingValue = Text(text: string) | Names(names: IndicatorList) | Flag(flag: bool)

  type Settings = map<string, SettingValue>

  /** The default of the `settings` column (app/database/models.py). */
  const DefaultSettings: Settings := map[
    "timeframe" := Text("5m"),
    "indicators" := Names(DefaultIndicators),
    "sensitivity" := Text("medium"),
    "notifications" := Flag(true),
    "risk_level" := Text("medium")
  ]

  /** `settings.get(key, default)` for a text setting. */
  function TextSetting(settings: Settings, key: string, default: string): (text: string)
    ensures key !in settings ==> text == default
    ensures key in settings && settings[key].Text? ==> text == settings[key].text
  {
    if key in settings && settings[key].Text? then settings[key].text else default
  }

  /** `settings.get('indicators', ['RSI', 'MACD'])`. */
  function IndicatorsSetting(settings: Settings): (names: IndicatorList)
    ensures "indicators" !in settings ==> names == DefaultIndicators
    ensures "indicators" in settings && settings["indicators"].Names? ==>
              names == settings["indicators"].names
  {
    if "indicators" in settings && settings["indicators"].Names? then settings["indicators"].names
    else DefaultIndicators
  }

  /** The stored defaults are what the lookups fall back to. */
  lemma DefaultSettingsAgreeWithFallbacks()
    ensures TextSetting(DefaultSettings, "timeframe", "5m") == TextSetting(map[], "timeframe", "5m")
    ensures TextSetting(DefaultSettings, "sensitivity", "medium") ==
            TextSetting(map[], "sensitivity", "medium")
    ensures IndicatorsSetting(DefaultSettings) == IndicatorsSetting(map[])
  {
  }

  datatype User = User(
    id: nat,
    telegramId: int,
    username: Option<string>,
    firstName: Option<string>,
    lastName: Option<string>,
    settings: Settings)

  /** A row of the `predictions` table. `createdAt` is the insertion time as a number. */
  datatype PredictionRow = PredictionRow(
    id: nat,
    userId: int,
    imagePath: string,
    timeframe: string,
    indicators: IndicatorList,
    prediction: string,
    confidence: real,
    takeProfit: real,
    stopLoss: real,
    supportLevel: real,
    resistanceLevel: real,
    pivotPoint: real,
    createdAt: int,
    actualResult: Option<string>,
    feedback: Option<string>)

  /** The single `bot_statistics` row. */
  datatype Stats = Stats(totalUsers: nat, totalPredictions: nat, correctPredictions: nat,
                         dailyRequests: nat)

  // ---------------------------------------------------------------- queries

  function HasTelegramId(telegramId: int): User -> bool {
    (u: User) => u.telegramId == telegramId
  }

  function HasUserId(userId: int): User -> bool {
    (u: User) => u.id == userId
  }

  function HasPredictionId(predictionId: int): PredictionRow -> bool {
    (row: PredictionRow) => row.id == predictionId
  }

  // ---------------------------------------------------------------- statistics

  /** The counters of an existing statistics row after `create_prediction`: the total and
      the daily count go up by one. (Without a row, `create_prediction` raises instead; see
      `Database.CreatePrediction`.) */
  function AfterPrediction(stats: Stats): (s: Stats)
    ensures s.totalPredictions == stats.totalPredictions + 1
    ensures s.dailyRequests == stats.dailyRequests + 1
    ensures s.totalUsers == stats.totalUsers
    ensures s.correctPredictions == stats.correctPredictions
  {
    stats.(totalPredictions := stats.totalPredictions + 1,
           dailyRequests := stats.dailyRequests + 1)
  }

  /** The dictionary `get_bot_statistics` returns; `correct` is absent without a row. */
  datatype StatisticsReport = StatisticsReport(total: nat, correct: Option<nat>, accuracy: real,
                                               users: nat, daily: nat)

  /** `correct / total * 100`, or 0 when nothing was predicted yet. */
  function Accuracy(s: Stats): (a: real)
    ensures s.totalPredictions == 0 ==> a == 0.0
    ensures s.correctPredictions <= s.totalPredictions ==> 0.0 <= a <= 100.0
    ensures s.correctPredictions == 0 ==> a == 0.0
  {
    if s.totalPredictions > 0 then
      AccuracyBounds(s.correctPredictions, s.totalPredictions);
      s.correctPredictions as real / s.totalPredictions as real * 100.0
    else 0.0
  }

  lemma AccuracyBounds(correct: nat, total: nat)
    requires total > 0
    ensures correct <= total ==> 0.0 <= correct as real / total as real * 100.0 <= 100.0
    ensures correct == 0 ==> correct as real / total as real * 100.0 == 0.0
  {
    var q := correct as real / total as real;
    assert q * total as real == correct as real;
  }

  /** `get_bot_statistics`. */
  function BotStatistics(stats: Option<Stats>): (r: StatisticsReport)
    ensures stats.None? ==> r == StatisticsReport(0, None, 0.0, 0, 0)
    ensures stats.Some? ==>
              r.total == stats.value.totalPredictions &&
              r.correct == Some(stats.value.correctPredictions) &&
              r.users == stats.value.totalUsers && r.daily == stats.value.dailyRequests
    ensures stats.Some? ==> r.accuracy == Accuracy(stats.value)
    ensures stats.Some? && stats.value.correctPredictions <= stats.value.totalPredictions ==>
              0.0 <= r.accuracy <= 100.0
  {
    if stats.None? then StatisticsReport(0, None, 0.0, 0, 0)
    else
      var s := stats.value;
      StatisticsReport(s.totalPredictions, Some(s.correctPredictions), Accuracy(s),
                       s.totalUsers, s.dailyRequests)
  }

  /** Each stored prediction shows up in the reported total and the daily count; the users
      are untouched, and the accuracy stays 0 while nothing was predicted correctly. */
  lemma PredictionIsCounted(stats: Stats)
    ensures BotStatistics(Some(AfterPrediction(stats))).total == BotStatistics(Some(stats)).total + 1
    ensures BotStatistics(Some(AfterPrediction(stats))).daily == BotStatistics(Some(stats)).daily + 1
    ensures BotStatistics(Some(AfterPrediction(stats))).users == BotStatistics(Some(stats)).users
    ensures stats.correctPredictions == 0 ==>
              BotStatistics(Some(AfterPrediction(stats))).accuracy == 0.0
  {
  }

  // ---------------------------------------------------------------- settings

  /** `{**old, **new}`. */
  function MergeSettings(current: Settings, update: Settings): (merged: Settings)
    ensures merged.Keys == current.Keys + update.Keys
  {
    current + update
  }

  /** The update wins on every key it mentions; every other key keeps its value. */
  lemma MergeSettingsOverrides(current: Settings, update: Settings)
    ensures forall k :: k in update ==> MergeSettings(current, update)[k] == update[k]
    ensures forall k :: k in current && k !in update ==>
              MergeSettings(current, update)[k] == current[k]
  {
  }

  /** Merging the same update twice is the same as merging it once. */
  lemma MergeSettingsIdempotent(current: Settings, update: Settings)
    ensures MergeSettings(MergeSettings(current, update), update) == MergeSettings(current, update)
  {
    assert MergeSettings(MergeSettings(current, update), update).Keys
        == MergeSettings(current, update).Keys;
  }

  // ---------------------------------------------------------------- newest first

  predicate NewestFirst(rows: seq<PredictionRow>) {
    forall i, j :: 0 <= i < j < |rows| ==> rows[i].createdAt >= rows[j].createdAt
  }

  /** Inserts `row` after every row at least as new as it. */
  function InsertByAge(rows: seq<PredictionRow>, row: PredictionRow): seq<PredictionRow> {
    if rows == [] || rows[0].createdAt < row.createdAt then [row] + rows
    else [rows[0]] + InsertByAge(rows[1..], row)
  }

  /** `order_by(created_at.desc())`. */
  function SortNewestFirst(rows: seq<PredictionRow>): seq<PredictionRow> {
    if rows == [] then [] else InsertByAge(SortNewestFirst(rows[..|rows| - 1]), rows[|rows| - 1])
  }

  lemma {:induction false} InsertByAgeSound(rows: seq<PredictionRow>, row: PredictionRow)
    requires NewestFirst(rows)
    ensures multiset(InsertByAge(rows, row)) == multiset(rows) + multiset{row}
    ensures NewestFirst(InsertByAge(rows, row))
  {
    if rows == [] || rows[0].createdAt < row.createdAt {
      assert InsertByAge(rows, row) == [row] + rows;
      if rows != [] {
        NewestFirstTail(rows);
      }
      NewestFirstCons(row, rows);
    } else {
      var tail := InsertByAge(rows[1..], row);
      assert InsertByAge(rows, row) == [rows[0]] + tail;
      NewestFirstTail(rows);
      InsertByAgeSound(rows[1..], row);
      InsertBehindNewer(rows, row, tail);
    }
  }

  /** The step of `InsertByAge` that keeps the first row in front. */
  lemma InsertBehindNewer(rows: seq<PredictionRow>, row: PredictionRow, tail: seq<PredictionRow>)
    requires rows != [] && rows[0].createdAt >= row.createdAt
    requires forall j :: 0 <= j < |rows| - 1 ==> rows[1..][j].createdAt <= rows[0].createdAt
    requires multiset(tail) == multiset(rows[1..]) + multiset{row} && NewestFirst(tail)
    ensures multiset([rows[0]] + tail) == multiset(rows) + multiset{row}
    ensures NewestFirst([rows[0]] + tail)
  {
    assert rows == [rows[0]] + rows[1..];
    forall j | 0 <= j < |tail| ensures tail[j].createdAt <= rows[0].createdAt {
      assert tail[j] in multiset(rows[1..]) + multiset{row};
      if tail[j] != row {
        var k :| 0 <= k < |rows[1..]| && rows[1..][k] == tail[j];
      }
    }
    NewestFirstCons(rows[0], tail);
  }

  lemma NewestFirstTail(rows: seq<PredictionRow>)
    requires rows != [] && NewestFirst(rows)
    ensures NewestFirst(rows[1..])
    ensures forall j :: 0 <= j < |rows| - 1 ==> rows[1..][j].createdAt <= rows[0].createdAt
    ensures forall j :: 0 <= j < |rows| ==> rows[j].createdAt <= rows[0].createdAt
  {
  }

  lemma NewestFirstCons(first: PredictionRow, rest: seq<PredictionRow>)
    requires NewestFirst(rest)
    requires forall j :: 0 <= j < |rest| ==> rest[j].createdAt <= first.createdAt
    ensures NewestFirst([first] + rest)
  {
    forall i, j | 0 <= i < j < |rest| + 1
      ensures ([first] + rest)[i].createdAt >= ([first] + rest)[j].createdAt
    {
      if i > 0 {
        assert ([first] + rest)[i] == rest[i - 1];
      }
      assert ([first] + rest)[j] == rest[j - 1];
    }
  }

  lemma {:induction false} SortNewestFirstSound(rows: seq<PredictionRow>)
    ensures NewestFirst(SortNewestFirst(rows))
    ensures multiset(SortNewestFirst(rows)) == multiset(rows)
    decreases |rows|
  {
    if rows != [] {
      var init := rows[..|rows| - 1];
      SortNewestFirstSound(init);
      InsertByAgeSound(SortNewestFirst(init), rows[|rows| - 1]);
      assert rows == init + [rows[|rows| - 1]];
    }
  }

  /** The rows of one user, in table order. */
  function RowsOf(rows: seq<PredictionRow>, userId: int): (mine: seq<PredictionRow>)
    ensures forall i :: 0 <= i < |mine| ==> mine[i].userId == userId
    ensures multiset(mine) <= multiset(rows)
    ensures forall row :: row in rows && row.userId == userId ==> row in mine
  {
    if rows == [] then []
    else if rows[0].userId == userId then
      assert rows == [rows[0]] + rows[1..];
      [rows[0]] + RowsOf(rows[1..], userId)
    else
      assert rows == [rows[0]] + rows[1..];
      RowsOf(rows[1..], userId)
  }

  /** `get_user_predictions(user_id, limit)`: the user's `limit` newest rows (all of them
      when there are fewer), newest first: no row of the user left out is newer than a row
      kept. */
  function UserPredictions(rows: seq<PredictionRow>, userId: int, limit: nat)
    : (r: seq<PredictionRow>)
    ensures |r| == if |RowsOf(rows, userId)| < limit then |RowsOf(rows, userId)| else limit
    ensures NewestFirst(r)
    ensures forall i :: 0 <= i < |r| ==> r[i].userId == userId
    ensures multiset(r) <= multiset(rows)
    ensures |r| < limit ==> forall row :: row in rows && row.userId == userId ==> row in r
    ensures forall x, y :: x in r && y in multiset(RowsOf(rows, userId)) - multiset(r) ==>
              y.createdAt <= x.createdAt
  {
    var mine := RowsOf(rows, userId);
    var sorted := SortNewestFirst(mine);
    SortNewestFirstSound(mine);
    assert |sorted| == |multiset(sorted)| == |multiset(mine)| == |mine|;
    var n := if |sorted| < limit then |sorted| else limit;
    FirstRowsSound(rows, userId, n);
    PrefixIsNewest(sorted, n);
    sorted[..n]
  }

  /** The first `n` rows of a newest-first list are at least as new as every other row. */
  lemma PrefixIsNewest(s: seq<PredictionRow>, n: nat)
    requires NewestFirst(s) && n <= |s|
    ensures forall x, y :: x in s[..n] && y in multiset(s) - multiset(s[..n]) ==>
              y.createdAt <= x.createdAt
  {
    forall x, y | x in s[..n] && y in multiset(s) - multiset(s[..n])
      ensures y.createdAt <= x.createdAt
    {
      assert y in s[n..] by {
        assert s == s[..n] + s[n..];
        assert multiset(s) == multiset(s[..n]) + multiset(s[n..]);
      }
      HeadNotOlder(s, n, x, y);
    }
  }

  lemma HeadNotOlder(s: seq<PredictionRow>, n: nat, x: PredictionRow, y: PredictionRow)
    requires NewestFirst(s) && n <= |s| && x in s[..n] && y in s[n..]
    ensures y.createdAt <= x.createdAt
  {
    var i :| 0 <= i < n && s[..n][i] == x;
    var j :| 0 <= j < |s| - n && s[n..][j] == y;
    assert s[i] == x && s[n + j] == y;
  }

  lemma FirstRowsSound(rows: seq<PredictionRow>, userId: int, n: nat)
    requires n <= |SortNewestFirst(RowsOf(rows, userId))|
    ensures var sorted := SortNewestFirst(RowsOf(rows, userId));
      NewestFirst(sorted[..n]) &&
      (forall i :: 0 <= i < n ==> sorted[i].userId == userId) &&
      multiset(sorted[..n]) <= multiset(rows) &&
      (n == |sorted| ==> forall row :: row in rows && row.userId == userId ==> row in sorted[..n])
  {
    var mine := RowsOf(rows, userId);
    var sorted := SortNewestFirst(mine);
    SortNewestFirstSound(mine);
    PrefixOfSorted(sorted, mine, rows, userId, n);
  }

  /** A prefix of a newest-first arrangement of the user's rows keeps the order, holds only
      that user's rows, and is all of them when it is the whole arrangement. */
  lemma PrefixOfSorted(sorted: seq<PredictionRow>, mine: seq<PredictionRow>,
                       rows: seq<PredictionRow>, userId: int, n: nat)
    requires n <= |sorted| && NewestFirst(sorted) && multiset(sorted) == multiset(mine)
    requires forall i :: 0 <= i < |mine| ==> mine[i].userId == userId
    requires multiset(mine) <= multiset(rows)
    requires forall row :: row in rows && row.userId == userId ==> row in mine
    ensures NewestFirst(sorted[..n])
    ensures forall i :: 0 <= i < n ==> sorted[i].userId == userId
    ensures multiset(sorted[..n]) <= multiset(rows)
    ensures n == |sorted| ==> forall row :: row in rows && row.userId == userId ==> row in sorted[..n]
  {
    PrefixOfMultiset(sorted, n);
    forall i | 0 <= i < n ensures sorted[i].userId == userId {
      assert sorted[i] in multiset(mine);
    }
    if n == |sorted| {
      assert sorted[..n] == sorted;
      forall row | row in rows && row.userId == userId ensures row in sorted {
        assert row in multiset(mine);
      }
    }
  }

  lemma PrefixOfMultiset(s: seq<PredictionRow>, n: nat)
    requires n <= |s|
    ensures multiset(s[..n]) <= multiset(s)
  {
    assert s == s[..n] + s[n..];
  }

  // ---------------------------------------------------------------- the database

  /** The primary key of the `users` table. */
  predicate UniqueUserIds(users: seq<User>) {
    forall i, j :: 0 <= i < j < |users| ==> users[i].id != users[j].id
  }

  /** What `get_or_create_user` produces. */
  datatype UserLookup = Existing(user: User) | NameError

  /** What `create_prediction` produces: the stored row, or the TypeError raised by
      `total_predictions += 1` on a statistics row created in the same call, whose counters
      are None until the session flushes. */
  datatype Insertion = Inserted(row: PredictionRow) | NoneCounterError

  /** The message of the TypeError that `None += 1` raises. */
  const NoneCounterMessage: string := "unsupported operand type(s) for +=: 'NoneType' and 'int'"

  class Database {
    var users: seq<User>
    var predictions: seq<PredictionRow>
    var stats: Option<Stats>
    /** The id the next inserted prediction receives. */
    var nextPredictionId: nat

    /** User ids are unique; prediction ids are positive, issued in increasing order and
        below the next id. */
    ghost predicate Valid()
      reads this
    {
      UniqueUserIds(users) &&
      nextPredictionId >= 1 &&
      (forall i :: 0 <= i < |predictions| ==> 1 <= predictions[i].id < nextPredictionId) &&
      (forall i, j :: 0 <= i < j < |predictions| ==> predictions[i].id < predictions[j].id)
    }

    /** A database holding `users`, no predictions, and a statistics row or none. */
    constructor(users: seq<User>, stats: Option<Stats>)
      requires UniqueUserIds(users)
      ensures Valid()
      ensures this.users == users && predictions == [] && this.stats == stats
    {
      this.users := users;
      predictions := [];
      this.stats := stats;
      nextPredictionId := 1;
    }

    /** `get_or_create_user`: the first user with that Telegram id. The create path names
        the undefined variable `tele_id` and raises before anything is written. */
    method GetOrCreateUser(telegramId: int) returns (r: UserLookup)
      ensures r.NameError? <==> forall j :: 0 <= j < |users| ==> users[j].telegramId != telegramId
      ensures r.Existing? ==>
                exists i :: 0 <= i < |users| && users[i] == r.user &&
                  r.user.telegramId == telegramId &&
                  forall j :: 0 <= j < i ==> users[j].telegramId != telegramId
    {
      var found := FirstMatch(users, HasTelegramId(telegramId));
      if found.None? {
        return NameError;
      }
      r := Existing(users[found.value]);
    }

    /** `create_prediction`: stores a new row and counts it in the statistics row. Without
        a statistics row the fresh one has None counters, the increment raises before the
        commit, and nothing is stored. */
    method CreatePrediction(userId: int, imagePath: string, timeframe: string,
                            indicators: IndicatorList, prediction: string, confidence: real,
                            takeProfit: real, stopLoss: real, support: real, resistance: real,
                            pivot: real, now: int)
      returns (r: Insertion)
      requires Valid()
      modifies this
      ensures Valid()
      ensures users == old(users)
      ensures r.NoneCounterError? <==> old(stats).None?
      ensures r.NoneCounterError? ==>
                predictions == old(predictions) && stats == old(stats) &&
                nextPredictionId == old(nextPredictionId)
      ensures r.Inserted? ==>
                r.row == PredictionRow(old(nextPredictionId), userId, imagePath, timeframe,
                                       indicators, prediction, confidence, takeProfit, stopLoss,
                                       support, resistance, pivot, now, None, None) &&
                (forall i :: 0 <= i < |old(predictions)| ==> old(predictions)[i].id != r.row.id) &&
                predictions == old(predictions) + [r.row] &&
                stats == Some(AfterPrediction(old(stats).value))
    {
      if stats.None? {
        return NoneCounterError;
      }
      var row := PredictionRow(nextPredictionId, userId, imagePath, timeframe, indicators,
                               prediction, confidence, takeProfit, stopLoss, support, resistance,
                               pivot, now, None, None);
      predictions := predictions + [row];
      nextPredictionId := nextPredictionId + 1;
      stats := Some(AfterPrediction(stats.value));
      r := Inserted(row);
    }

    /** `update_prediction_feedback`: records the result and the note on the row with that
        id; the correct count goes up only when the result equals the stored prediction and
        the statistics row exists. An unknown id changes nothing. */
    method UpdatePredictionFeedback(predictionId: int, actualResult: string,
                                    feedback: Option<string>)
      returns (r: Option<PredictionRow>)
      requires Valid()
      modifies this
      ensures Valid()
      ensures users == old(users) && nextPredictionId == old(nextPredictionId)
      ensures r.None? <==> forall j :: 0 <= j < |old(predictions)| ==>
                                         old(predictions)[j].id != predictionId
      ensures r.None? ==> predictions == old(predictions) && stats == old(stats)
      ensures r.Some? ==>
                exists i :: 0 <= i < |old(predictions)| && old(predictions)[i].id == predictionId &&
                  r.value == old(predictions)[i].(actualResult := Some(actualResult),
                                                  feedback := feedback) &&
                  predictions == old(predictions)[i := r.value] &&
                  stats == if actualResult == old(predictions)[i].prediction && old(stats).Some?
                           then Some(old(stats).value.(correctPredictions :=
                                                       old(stats).value.correctPredictions + 1))
                           else old(stats)
    {
      var found := FirstMatch(predictions, HasPredictionId(predictionId));
      if found.None? {
        return None;
      }
      var i := found.value;
      var updated := predictions[i].(actualResult := Some(actualResult), feedback := feedback);
      predictions := predictions[i := updated];
      if actualResult == updated.prediction && stats.Some? {
        stats := Some(stats.value.(correctPredictions := stats.value.correctPredictions + 1));
      }
      r := Some(updated);
    }

    /** `get_user_predictions`. */
    function GetUserPredictions(userId: int, limit: nat): (r: seq<PredictionRow>)
      reads this
      ensures |r| == if |RowsOf(predictions, userId)| < limit then |RowsOf(predictions, userId)| else limit
      ensures NewestFirst(r)
      ensures forall i :: 0 <= i < |r| ==> r[i].userId == userId && r[i] in predictions
      ensures forall x, y :: x in r && y in multiset(RowsOf(predictions, userId)) - multiset(r) ==>
                y.createdAt <= x.createdAt
      ensures multiset(r) <= multiset(predictions)
      ensures |r| < limit ==> forall row :: row in predictions && row.userId == userId ==> row in r
      ensures r == UserPredictions(predictions, userId, limit)
    {
      var rows := UserPredictions(predictions, userId, limit);
      forall i | 0 <= i < |rows| ensures rows[i] in predictions {
        assert rows[i] in multiset(rows);
      }
      rows
    }

    /** `get_bot_statistics`. */
    function GetBotStatistics(): (r: StatisticsReport)
      reads this
      ensures stats.None? ==> r.correct.None? && r.total == 0 && r.accuracy == 0.0
      ensures stats.Some? ==> r.correct.Some? && r.total == stats.value.totalPredictions
      ensures r == BotStatistics(stats)
    {
      BotStatistics(stats)
    }

    /** `update_user_settings`: the first user with that id gets the merge of its settings
        with the update; an unknown id changes nothing. */
    method UpdateUserSettings(userId: int, update: Settings) returns (r: Option<User>)
      requires Valid()
      modifies this
      ensures Valid()
      ensures predictions == old(predictions) && stats == old(stats)
      ensures nextPredictionId == old(nextPredictionId)
      ensures r.None? <==> forall j :: 0 <= j < |old(users)| ==> old(users)[j].id != userId
      ensures r.None? ==> users == old(users)
      ensures r.Some? ==>
                exists i :: 0 <= i < |old(users)| && old(users)[i].id == userId &&
                  r.value == old(users)[i].(settings := MergeSettings(old(users)[i].settings, update)) &&
                  users == old(users)[i := r.value]
    {
      var found := FirstMatch(users, HasUserId(userId));
      if found.None? {
        return None;
      }
      var i := found.value;
      var updated := users[i].(settings := MergeSettings(users[i].settings, update));
      users := users[i := updated];
      r := Some(updated);
    }
  }
}

=== FILE: feature_extractor.dfy ===
/** `FeatureExtractor` (app/ml/feature_extractor.py): a map of named features computed from
    the OHLC bars of a chart. A fixed set of placeholder values is always written last, so it
    overrides anything computed before it. */
module FeatureExtractor {
  import opened Common
  import opened ImageProcessor
  import opened Indicators

  /** `_get_default_features()`. */
  const DefaultFeatures: map<string, real> := map[
    "rsi" := 50.0,
    "macd" := 0.0,
    "macd_signal" := 0.0,
    "macd_hist" := 0.0,
    "bb_position" := 0.5,
    "atr_pct" := 1.0,
    "stoch_k" := 50.0,
    "stoch_d" := 50.0,
    "volatility" := 0.01
  ]

  /** The keys computed from the bars themselves. */
  const ComputedKeys: set<string> := {"price_change", "price_change_pct", "sma_10", "sma_20"}

  /** A computed feature never collides with a default one. */
  lemma ComputedKeysAreNotDefaults()
    ensures ComputedKeys !! DefaultFeatures.Keys
  {
    assert DefaultFeatures.Keys == {"rsi", "macd", "macd_signal", "macd_hist", "bb_position",
                                    "atr_pct", "stoch_k", "stoch_d", "volatility"};
  }

  /** The outcome of `extract_features`: the feature map, or the `ZeroDivisionError` that the
      percentage change raises when the previous close is zero. */
  datatype Extraction = Extracted(features: map<string, real>) | ZeroDivisionError

  /** `[c['close'] for c in bars]`. */
  function Closes(bars: seq<Bar>): (closes: seq<real>)
    ensures |closes| == |bars|
    ensures forall i :: 0 <= i < |bars| ==> closes[i] == bars[i].close
  {
    seq(|bars|, i requires 0 <= i < |bars| => bars[i].close)
  }

  /** `features.update(_get_default_features())`: every default is present with its default
      value, and a computed key keeps the value computed for it. */
  lemma MergeDefaults(computed: map<string, real>)
    requires computed.Keys <= ComputedKeys
    ensures var f := computed + DefaultFeatures;
      (forall k :: k in DefaultFeatures ==> k in f && f[k] == DefaultFeatures[k]) &&
      f.Keys <= DefaultFeatures.Keys + ComputedKeys &&
      (forall k :: k in ComputedKeys ==> (k in f <==> k in computed)) &&
      (forall k :: k in computed ==> f[k] == computed[k])
  {
    ComputedKeysAreNotDefaults();
  }

  /** The price change entries of a feature map built from `bars`: present from two bars
      on, when the previous close is not zero, the last close minus the one before, and that
      change as a percentage. */
  predicate PriceChangeEntries(bars: seq<Bar>, f: map<string, real>) {
    var n := |bars|;
    ("price_change" in f <==> n >= 2) &&
    ("price_change_pct" in f <==> n >= 2) &&
    (n >= 2 ==>
      bars[n - 2].close != 0.0 &&
      f["price_change"] == bars[n - 1].close - bars[n - 2].close &&
      f["price_change_pct"] ==
        (bars[n - 1].close - bars[n - 2].close) / bars[n - 2].close * 100.0)
  }

  /** The moving average entries: present from ten bars on, the mean of the last ten closes
      and the mean of the last twenty (of all of them below twenty). */
  predicate SmaEntries(bars: seq<Bar>, f: map<string, real>) {
    var n := |bars|;
    ("sma_10" in f <==> n >= 10) &&
    ("sma_20" in f <==> n >= 10) &&
    (n >= 10 ==>
      f["sma_10"] == Mean(Closes(bars[n - 10..])) &&
      f["sma_20"] == Mean(Closes(bars[n - MinNat(n, 20)..])))
  }

  /** Merging the defaults keeps the computed entries. */
  lemma MergeKeepsEntries(bars: seq<Bar>, computed: map<string, real>)
    requires computed.Keys <= ComputedKeys
    requires PriceChangeEntries(bars, computed) && SmaEntries(bars, computed)
    ensures PriceChangeEntries(bars, computed + DefaultFeatures)
    ensures SmaEntries(bars, computed + DefaultFeatures)
  {
    MergeDefaults(computed);
  }

  /** The map after the price change step. */
  lemma PriceStep(bars: seq<Bar>, priced: map<string, real>)
    requires |bars| < 2 ==> priced == map[]
    requires |bars| >= 2 ==>
               var change := bars[|bars| - 1].close - bars[|bars| - 2].close;
               bars[|bars| - 2].close != 0.0 &&
               priced == map["price_change" := change]
                            ["price_change_pct" := change / bars[|bars| - 2].close * 100.0]
    ensures PriceChangeEntries(bars, priced)
    ensures priced.Keys <= {"price_change", "price_change_pct"}
  {
  }

  /** The closes of a suffix of the bars, cut again, are the closes of a shorter suffix. */
  lemma ClosesSuffix(bars: seq<Bar>, m: nat, j: nat)
    requires m + j <= |bars|
    ensures Closes(bars[m..])[j..] == Closes(bars[m + j..])
  {
    var a, b := Closes(bars[m..])[j..], Closes(bars[m + j..]);
    assert |a| == |b|;
    forall i | 0 <= i < |a| ensures a[i] == b[i] {
      assert a[i] == bars[m..][j + i].close;
    }
  }

  /** The map after the moving average step, from the last (up to) twenty closes. */
  lemma SmaStep(bars: seq<Bar>, priced: map<string, real>, closes: seq<real>, f: map<string, real>)
    requires PriceChangeEntries(bars, priced) && priced.Keys <= {"price_change", "price_change_pct"}
    requires closes == Closes(bars[|bars| - MinNat(|bars|, 20)..])
    requires |closes| < 10 ==> f == priced
    requires |closes| >= 10 ==>
               f == priced["sma_10" := Mean(closes[|closes| - 10..])]
                          ["sma_20" := if |closes| >= 20 then Mean(closes[|closes| - 20..])
                                       else Mean(closes)]
    ensures PriceChangeEntries(bars, f) && SmaEntries(bars, f)
    ensures f.Keys <= ComputedKeys
  {
    var n := |bars|;
    if |closes| >= 10 {
      ClosesSuffix(bars, n - MinNat(n, 20), |closes| - 10);
      if |closes| >= 20 {
        assert closes[|closes| - 20..] == closes;
      }
      assert "sma_10" != "price_change" && "sma_10" != "price_change_pct";
      assert "sma_20" != "price_change" && "sma_20" != "price_change_pct";
    }
  }

  /** `extract_features(ohlc_data, selected_indicators)`; `selected_indicators` is accepted
      and ignored, as in the source. */
  method ExtractFeatures(ohlcData: Option<seq<Bar>>, selectedIndicators: Option<seq<string>>)
    returns (r: Extraction)
    ensures (ohlcData.None? || ohlcData.value == []) ==> r == Extracted(DefaultFeatures)
    ensures ohlcData.Some? ==>
              var bars := ohlcData.value;
              (r.ZeroDivisionError? <==> |bars| >= 2 && bars[|bars| - 2].close == 0.0)
    // the defaults are always present, with their default values, and nothing but the
    // defaults and the computed keys is ever present
    ensures r.Extracted? ==>
              (forall k :: k in DefaultFeatures ==> k in r.features && r.features[k] == DefaultFeatures[k]) &&
              r.features.Keys <= DefaultFeatures.Keys + ComputedKeys
    ensures ohlcData.Some? && r.Extracted? ==>
              PriceChangeEntries(ohlcData.value, r.features) && SmaEntries(ohlcData.value, r.features)
  {
    if ohlcData.None? || ohlcData.value == [] {
      MergeDefaults(map[]);
      assert map[] + DefaultFeatures == DefaultFeatures;
      return Extracted(DefaultFeatures);
    }
    var bars := ohlcData.value;
    var n := |bars|;
    var features: map<string, real> := map[];
    if n >= 2 {
      features := features["price_change" := bars[n - 1].close - bars[n - 2].close];
      if bars[n - 2].close == 0.0 {
        return ZeroDivisionError;
      }
      features := features["price_change_pct" := features["price_change"] / bars[n - 2].close * 100.0];
    }
    PriceStep(bars, features);
    ghost var priced := features;
    var closes := Closes(bars[n - MinNat(n, 20)..]);
    if |closes| >= 10 {
      features := features["sma_10" := Mean(closes[|closes| - 10..])];
      features := features["sma_20" := if |closes| >= 20 then Mean(closes[|closes| - 20..]) else Mean(closes)];
    }
    SmaStep(bars, priced, closes, features);
    MergeDefaults(features);
    MergeKeepsEntries(bars, features);
    r := Extracted(features + DefaultFeatures);
  }
}

=== FILE: feedback.dfy ===
/** `feedback_callback` (app/bot/handlers/feedback.py): parses `feedback_<id>_<result>` and
    records the verdict on the stored prediction. The reply texts are reduced to which of the
    replies is sent. */
module Feedback {
  import opened Common
  import opened Crud
  import opened Keyboards
  import Predictor

  /** `result_map.get(result, 'partial')`. */
  function ActualResult(result: string): (actual: string)
    ensures actual in {"correct", "incorrect", "partial"}
    ensures result in {"correct", "incorrect", "partial"} ==> actual == result
    ensures result !in {"correct", "incorrect", "partial"} ==> actual == "partial"
  {
    if result == "correct" || result == "incorrect" || result == "partial" then result
    else "partial"
  }

  /** What the callback data asks for. */
  datatype Request =
    | NotFeedback                 // does not start with `feedback_`: only answered
    | Malformed                   // fewer than three fields
    | BadId                       // `int(parts[1])` raises ValueError
    | Record(predictionId: int, result: string)

  /** The parse of lines 12-18: the first `_` field must be followed by an id and a result;
      fields after the third are ignored. */
  function ParseFeedback(data: string): (r: Request)
    ensures r.NotFeedback? <==> !StartsWith(data, "feedback_")
    ensures StartsWith(data, "feedback_") ==>
              var parts := Split(data, '_');
              (r.Malformed? <==> |parts| < 3) &&
              (|parts| >= 3 ==>
                (r.BadId? <==> ParseInt(parts[1]).None?) &&
                (r.Record? ==> Some(r.predictionId) == ParseInt(parts[1]) && r.result == parts[2]))
  {
    if !StartsWith(data, "feedback_") then NotFeedback
    else
      var parts := Split(data, '_');
      if |parts| < 3 then Malformed
      else match ParseInt(parts[1])
        case None => BadId
        case Some(id) => Record(id, parts[2])
  }

  /** The note stored with the verdict: the raw result text. */
  function Note(result: string): string {
    "Feedback via button: " + result
  }

  /** Parsing undoes the keyboard's encoding: the button for `(id, result)` gives back
      `(id, result)`. */
  lemma ParseFeedbackCallback(predictionId: nat, result: string)
    requires '_' !in result
    ensures ParseFeedback(FeedbackCallback(predictionId, result)) == Record(predictionId, result)
  {
    var id := NatToString(predictionId);
    var data := FeedbackCallback(predictionId, result);
    assert data == "feedback" + "_" + (id + "_" + result);
    SplitPrefixed("feedback", '_', data);
    assert data[|"feedback"| + 1..] == id + "_" + result;
    assert '_' !in id by {
      assert IsDigits(id);
    }
    assert id + "_" + result == id + ['_'] + result;
    SplitAfterField(id, '_', result);
    SplitNoSeparator(result, '_');
    ParseIntNatToString(predictionId);
  }

  /** Each of the three feedback buttons records its own verdict for its own prediction. */
  lemma FeedbackButtonsRecordTheirVerdict(predictionId: nat)
    ensures forall r :: 0 <= r < 3 ==>
              var request := ParseFeedback(FeedbackKeyboard(predictionId)[r][0].callbackData);
              request.Record? && request.predictionId == predictionId &&
              ActualResult(request.result) == ["correct", "incorrect", "partial"][r]
  {
    ParseFeedbackCallback(predictionId, "correct");
    ParseFeedbackCallback(predictionId, "incorrect");
    ParseFeedbackCallback(predictionId, "partial");
  }

  /** A verdict is never a direction, so it never equals the prediction the service
      stores: the correct count cannot move through the bot. */
  lemma VerdictIsNeverADirection(result: string, d: Predictor.Direction)
    ensures ActualResult(result) != Predictor.DirectionName(d)
  {
  }

  /** Which reply the user gets. */
  datatype Reply = NoReply | Thanks(predictionId: int, result: string) | ParseError | SaveError

  /** Every stored prediction names a direction, as the prediction service stores it. */
  ghost predicate PredictionsAreDirections(rows: seq<PredictionRow>) {
    forall i :: 0 <= i < |rows| ==> exists d :: rows[i].prediction == Predictor.DirectionName(d)
  }

  /** Recording a verdict on the row at `k` leaves every row with another id as it was. */
  lemma VerdictTouchesItsRowOnly(before: seq<PredictionRow>, after: seq<PredictionRow>, k: nat,
                                 actual: string, note: string)
    requires k < |before|
    requires forall i, j :: 0 <= i < j < |before| ==> before[i].id < before[j].id
    requires after == before[k := before[k].(actualResult := Some(actual), feedback := Some(note))]
    ensures |after| == |before|
    ensures forall i :: 0 <= i < |before| ==>
              after[i] == if before[i].id == before[k].id
                          then before[i].(actualResult := Some(actual), feedback := Some(note))
                          else before[i]
  {
  }

  /** A row rewritten with the same prediction keeps every row a direction. */
  lemma VerdictKeepsDirections(before: seq<PredictionRow>, k: nat, row: PredictionRow)
    requires k < |before| && row.prediction == before[k].prediction
    requires PredictionsAreDirections(before)
    ensures PredictionsAreDirections(before[k := row])
  {
    var after := before[k := row];
    forall j | 0 <= j < |after|
      ensures exists e :: after[j].prediction == Predictor.DirectionName(e)
    {
      var e :| before[j].prediction == Predictor.DirectionName(e);
      assert after[j].prediction == before[j].prediction;
    }
  }

  /** What `update_prediction_feedback` leaves behind for the handler: only the row with the
      id gets the verdict, and with only directions stored the statistics stay as they
      were. */
  lemma RecordedVerdict(before: seq<PredictionRow>, after: seq<PredictionRow>,
                        statsBefore: Option<Stats>, statsAfter: Option<Stats>,
                        id: int, result: string, updated: Option<PredictionRow>)
    requires forall i, j :: 0 <= i < j < |before| ==> before[i].id < before[j].id
    requires updated.None? ==> after == before && statsAfter == statsBefore
    requires updated.Some? ==>
               exists k :: 0 <= k < |before| && before[k].id == id &&
                 updated.value == before[k].(actualResult := Some(ActualResult(result)),
                                             feedback := Some(Note(result))) &&
                 after == before[k := updated.value] &&
                 statsAfter == if ActualResult(result) == before[k].prediction && statsBefore.Some?
                               then Some(statsBefore.value.(correctPredictions :=
                                                            statsBefore.value.correctPredictions + 1))
                               else statsBefore
    requires updated.None? <==> forall j :: 0 <= j < |before| ==> before[j].id != id
    ensures |after| == |before|
    ensures forall i :: 0 <= i < |before| ==>
              after[i] == if before[i].id == id
                          then before[i].(actualResult := Some(ActualResult(result)),
                                          feedback := Some(Note(result)))
                          else before[i]
    ensures PredictionsAreDirections(before) ==>
              statsAfter == statsBefore && PredictionsAreDirections(after)
  {
    if updated.Some? {
      var k :| 0 <= k < |before| && before[k].id == id &&
               updated.value == before[k].(actualResult := Some(ActualResult(result)),
                                           feedback := Some(Note(result))) &&
               after == before[k := updated.value] &&
               statsAfter == if ActualResult(result) == before[k].prediction && statsBefore.Some?
                             then Some(statsBefore.value.(correctPredictions :=
                                                          statsBefore.value.correctPredictions + 1))
                             else statsBefore;
      VerdictTouchesItsRowOnly(before, after, k, ActualResult(result), Note(result));
      if PredictionsAreDirections(before) {
        var d :| before[k].prediction == Predictor.DirectionName(d);
        VerdictIsNeverADirection(result, d);
        VerdictKeepsDirections(before, k, updated.value);
      }
    }
  }

  /** `feedback_callback`. */
  method FeedbackCallbackHandler(db: Database, data: string) returns (reply: Reply)
    requires db.Valid()
    modifies db
    ensures db.Valid()
    ensures db.users == old(db.users)
    ensures !ParseFeedback(data).Record? ==>
              db.predictions == old(db.predictions) && db.stats == old(db.stats)
    ensures ParseFeedback(data).NotFeedback? ==> reply == NoReply
    ensures ParseFeedback(data).Malformed? ==> reply == ParseError
    ensures ParseFeedback(data).BadId? ==> reply == SaveError
    ensures ParseFeedback(data).Record? ==>
              var request := ParseFeedback(data);
              reply == Thanks(request.predictionId, request.result) &&
              |db.predictions| == |old(db.predictions)| &&
              forall i :: 0 <= i < |db.predictions| ==>
                db.predictions[i] ==
                  if old(db.predictions)[i].id == request.predictionId
                  then old(db.predictions)[i].(actualResult := Some(ActualResult(request.result)),
                                               feedback := Some(Note(request.result)))
                  else old(db.predictions)[i]
    // with only directions stored, feedback never changes the statistics
    ensures PredictionsAreDirections(old(db.predictions)) ==>
              db.stats == old(db.stats) && PredictionsAreDirections(db.predictions)
  {
    var request := ParseFeedback(data);
    match request
    case NotFeedback =>
      return NoReply;
    case Malformed =>
      return ParseError;
    case BadId =>
      return SaveError;
    case Record(id, result) =>
      var actual := ActualResult(result);
      ghost var before, statsBefore := db.predictions, db.stats;
      var updated := db.UpdatePredictionFeedback(id, actual, Some(Note(result)));
      RecordedVerdict(before, db.predictions, statsBefore, db.stats, id, result, updated);
      reply := Thanks(id, result);
  }
}

=== FILE: image_processor.dfy ===
/** Candle geometry post-processing of `ImageProcessor` (app/ml/image_processor.py).
    OpenCV's contour search and Hough line transform are not modelled: the contours (area and
    bounding box) and the measured line angles arrive as inputs. */
module ImageProcessor {
  import opened Common

  const CandleMinArea: real := 50.0
  const CandleMaxArea: real := 500.0

  /** One pixel of the RGB image. */
  datatype Rgb = Rgb(r: int, g: int, b: int)

  /** The decoded color image as rows of pixels (numpy shape = (height, width, 3)). */
  datatype ColorImage = ColorImage(rows: seq<seq<Rgb>>) {
    function Height(): nat { |rows| }
    function Width(): nat { if |rows| == 0 then 0 else |rows[0]| }
    /** A numpy array is rectangular: every row has the same width. */
    predicate Rectangular() { forall i :: 0 <= i < |rows| ==> |rows[i]| == Width() }
  }

  /** What `findContours`/`contourArea`/`boundingRect` report for one contour. */
  datatype Contour = Contour(area: real, x: int, y: int, w: int, h: int)

  datatype CandleColor = Green | Red | Unknown

  datatype Candle = Candle(x: int, y: int, width: int, height: int,
                           centerX: int, centerY: int, color: CandleColor, area: real)

  datatype Bar = Bar(open: real, high: real, low: real, close: real, color: CandleColor)

  // ---------------------------------------------------------------- colour classification

  /** A pixel whose three channels are equal: white, black or a shade of grey. */
  predicate Grey(c: Rgb) { c.r == c.g && c.g == c.b }

  /** `_is_green_candle`: green strictly dominant and brighter than 100. Never a red pixel,
      never a grey one. */
  predicate IsGreen(c: Rgb): (green: bool)
    ensures green ==> !IsRed(c)
    ensures Grey(c) ==> !green
  {
    c.g > c.r && c.g > c.b && c.g > 100
  }

  /** `_is_red_candle`: red strictly dominant and brighter than 100. Never a grey pixel. */
  predicate IsRed(c: Rgb): (red: bool)
    ensures Grey(c) ==> !red
  {
    c.r > c.g && c.r > c.b && c.r > 100
  }

  /** The label of a candle whose centre pixel is `c`: green wins, then red, else unknown.
      Because no pixel is both green and red, the label is red exactly when the pixel is red. */
  function ColorOf(c: Rgb): (color: CandleColor)
    ensures color == Green <==> IsGreen(c)
    ensures color == Red <==> IsRed(c)
    ensures color == Unknown <==> !IsGreen(c) && !IsRed(c)
  {
    if IsGreen(c) then Green else if IsRed(c) then Red else Unknown
  }

  // ---------------------------------------------------------------- contour filter

  predicate AreaInBand(area: real) { CandleMinArea < area < CandleMaxArea }

  /** `h / w if w > 0 else 0` */
  function AspectRatio(w: int, h: int): real {
    if w > 0 then h as real / w as real else 0.0
  }

  /** Python's floor division `x + w // 2` (Dafny's `/` by a positive divisor floors too). */
  function CenterX(c: Contour): int { c.x + c.w / 2 }
  function CenterY(c: Contour): int { c.y + c.h / 2 }

  predicate CenterInside(c: Contour, img: ColorImage) {
    0 <= CenterX(c) < img.Width() && 0 <= CenterY(c) < img.Height()
  }

  /** The three tests a contour must pass to become a candle. */
  predicate Accepted(c: Contour, img: ColorImage) {
    AreaInBand(c.area) && AspectRatio(c.w, c.h) > 1.5 && CenterInside(c, img)
  }

  function CandleOf(c: Contour, img: ColorImage): Candle
    requires img.Rectangular() && CenterInside(c, img)
  {
    Candle(c.x, c.y, c.w, c.h, CenterX(c), CenterY(c),
           ColorOf(img.rows[CenterY(c)][CenterX(c)]), c.area)
  }

  /** The candles the detection loop collects, in contour order, before sorting. */
  function Kept(contours: seq<Contour>, img: ColorImage): seq<Candle>
    requires img.Rectangular()
  {
    if contours == [] then []
    else
      var last := contours[|contours| - 1];
      Kept(contours[..|contours| - 1], img)
        + (if Accepted(last, img) then [CandleOf(last, img)] else [])
  }

  /** Everything a returned candle satisfies. */
  ghost predicate WellShaped(cd: Candle, img: ColorImage)
    requires img.Rectangular()
  {
    && CandleMinArea < cd.area < CandleMaxArea
    && cd.width > 0 && 2 * cd.height > 3 * cd.width
    && cd.centerX == cd.x + cd.width / 2 && cd.centerY == cd.y + cd.height / 2
    && 0 <= cd.centerX < img.Width() && 0 <= cd.centerY < img.Height()
    && cd.color == ColorOf(img.rows[cd.centerY][cd.centerX])
  }

  /** A positive width and `h / w > 1.5` means `2h > 3w`, and conversely. */
  lemma AspectRatioMeansTall(w: int, h: int)
    ensures AspectRatio(w, h) > 1.5 <==> w > 0 && 2 * h > 3 * w
  {
    if w > 0 {
      QuotientAbove(h as real, w as real, 1.5);
    }
  }

  /** For a positive divisor, `h / w > c` iff `h > c * w`. */
  lemma QuotientAbove(h: real, w: real, c: real)
    requires w > 0.0
    ensures h / w > c <==> h > c * w
  {
    var q := h / w;
    assert q * w == h;
    if q > c {
      ProductPositive(q - c, w);
      assert (q - c) * w == q * w - c * w;
    } else {
      ProductNonNegative(c - q, w);
      assert (c - q) * w == c * w - q * w;
    }
  }

  lemma {:induction false} KeptAreWellShaped(contours: seq<Contour>, img: ColorImage)
    requires img.Rectangular()
    ensures forall i :: 0 <= i < |Kept(contours, img)| ==> WellShaped(Kept(contours, img)[i], img)
  {
    if contours != [] {
      var last := contours[|contours| - 1];
      KeptAreWellShaped(contours[..|contours| - 1], img);
      AspectRatioMeansTall(last.w, last.h);
    }
  }

  // ---------------------------------------------------------------- stable sort by x

  predicate SortedByX(s: seq<Candle>) {
    forall i, j :: 0 <= i < j < |s| ==> s[i].x <= s[j].x
  }

  /** The candles of `s` whose left edge is at `x == k`, in their order in `s`. */
  function WithX(s: seq<Candle>, k: int): seq<Candle> {
    if s == [] then [] else (if s[0].x == k then [s[0]] else []) + WithX(s[1..], k)
  }

  /** Inserts `c` after every element whose x does not exceed `c.x`. */
  function InsertByX(s: seq<Candle>, c: Candle): seq<Candle> {
    if s == [] then [c]
    else if c.x < s[0].x then [c] + s
    else [s[0]] + InsertByX(s[1..], c)
  }

  /** `list.sort(key=lambda c: c['x'])`: Python's sort is stable, so the result is the
      insertion sort that keeps equal keys in their original order. */
  function SortByX(s: seq<Candle>): seq<Candle> {
    if s == [] then [] else InsertByX(SortByX(s[..|s| - 1]), s[|s| - 1])
  }

  lemma {:induction false} WithXAppend(a: seq<Candle>, b: seq<Candle>, k: int)
    ensures WithX(a + b, k) == WithX(a, k) + WithX(b, k)
  {
    if a != [] {
      var head := if a[0].x == k then [a[0]] else [];
      assert (a + b)[0] == a[0] && (a + b)[1..] == a[1..] + b;
      assert WithX(a + b, k) == head + WithX(a[1..] + b, k);
      WithXAppend(a[1..], b, k);
      assert WithX(a, k) == head + WithX(a[1..], k);
    } else {
      assert a + b == b;
    }
  }

  lemma {:induction false} WithXAbsent(s: seq<Candle>, k: int)
    requires forall i :: 0 <= i < |s| ==> s[i].x != k
    ensures WithX(s, k) == []
  {
    if s != [] {
      WithXAbsent(s[1..], k);
    }
  }

  lemma {:induction false} InsertByXPermutes(s: seq<Candle>, c: Candle)
    ensures multiset(InsertByX(s, c)) == multiset(s) + multiset{c}
  {
    if s != [] && c.x >= s[0].x {
      InsertByXPermutes(s[1..], c);
      assert s == [s[0]] + s[1..];
    }
  }

  lemma {:induction false} InsertByXSorted(s: seq<Candle>, c: Candle)
    requires SortedByX(s)
    ensures SortedByX(InsertByX(s, c))
  {
    if s != [] && c.x >= s[0].x {
      var t := InsertByX(s[1..], c);
      InsertByXSorted(s[1..], c);
      InsertByXPermutes(s[1..], c);
      forall j | 0 <= j < |t| ensures s[0].x <= t[j].x {
        assert t[j] in multiset(t);
        assert t[j] in multiset(s[1..]) || t[j] == c;
      }
    }
  }

  lemma WithXCons(c: Candle, s: seq<Candle>, k: int)
    ensures WithX([c] + s, k) == (if c.x == k then [c] else []) + WithX(s, k)
  {
    assert ([c] + s)[0] == c && ([c] + s)[1..] == s;
  }

  lemma SortedTail(s: seq<Candle>)
    requires s != [] && SortedByX(s)
    ensures SortedByX(s[1..])
    ensures forall i :: 0 <= i < |s| ==> s[0].x <= s[i].x
  {
    forall i, j | 0 <= i < j < |s| - 1 ensures s[1..][i].x <= s[1..][j].x {
      assert s[1..][i] == s[i + 1] && s[1..][j] == s[j + 1];
    }
  }

  /** The candles at `x == k` of `[c]`. */
  function Single(c: Candle, k: int): seq<Candle> {
    if c.x == k then [c] else []
  }

  lemma {:induction false} InsertByXStable(s: seq<Candle>, c: Candle, k: int)
    requires SortedByX(s)
    ensures WithX(InsertByX(s, c), k) == WithX(s, k) + Single(c, k)
  {
    if s == [] {
      assert InsertByX(s, c) == [c] + [];
      WithXCons(c, [], k);
    } else {
      SortedTail(s);
      if c.x < s[0].x {
        InsertInFront(s, c, k);
      } else {
        InsertByXStable(s[1..], c, k);
        InsertBehind(s, c, k);
      }
    }
  }

  lemma InsertInFront(s: seq<Candle>, c: Candle, k: int)
    requires s != [] && c.x < s[0].x
    requires forall i :: 0 <= i < |s| ==> s[0].x <= s[i].x
    ensures WithX(InsertByX(s, c), k) == WithX(s, k) + Single(c, k)
  {
    assert InsertByX(s, c) == [c] + s;
    WithXCons(c, s, k);
    if c.x == k {
      WithXAbsent(s, k);
    }
  }

  lemma InsertBehind(s: seq<Candle>, c: Candle, k: int)
    requires s != [] && c.x >= s[0].x && SortedByX(s[1..])
    requires WithX(InsertByX(s[1..], c), k) == WithX(s[1..], k) + Single(c, k)
    ensures WithX(InsertByX(s, c), k) == WithX(s, k) + Single(c, k)
  {
    var t := InsertByX(s[1..], c);
    var head := if s[0].x == k then [s[0]] else [];
    assert InsertByX(s, c) == [s[0]] + t;
    WithXCons(s[0], t, k);
    WithXCons(s[0], s[1..], k);
    assert s == [s[0]] + s[1..];
    calc {
      WithX(InsertByX(s, c), k);
      head + WithX(t, k);
      head + (WithX(s[1..], k) + Single(c, k));
      (head + WithX(s[1..], k)) + Single(c, k);
      WithX(s, k) + Single(c, k);
    }
  }

  /** The sort is sorted and a permutation. */
  lemma {:induction false} SortByXPermutes(s: seq<Candle>)
    ensures SortedByX(SortByX(s))
    ensures multiset(SortByX(s)) == multiset(s)
  {
    if s != [] {
      var p, c := s[..|s| - 1], s[|s| - 1];
      assert SortByX(s) == InsertByX(SortByX(p), c);
      SortByXPermutes(p);
      InsertByXSorted(SortByX(p), c);
      InsertByXPermutes(SortByX(p), c);
      assert s == p + [c];
    }
  }

  /** The sort is stable: for every x the candles at that x keep their input order. */
  lemma {:induction false} SortByXStable(s: seq<Candle>)
    ensures forall k :: WithX(SortByX(s), k) == WithX(s, k)
  {
    if s != [] {
      var p, c := s[..|s| - 1], s[|s| - 1];
      var sorted := SortByX(p);
      assert SortByX(s) == InsertByX(sorted, c);
      SortByXPermutes(p);
      SortByXStable(p);
      assert s == p + [c];
      forall k ensures WithX(SortByX(s), k) == WithX(s, k) {
        InsertByXStable(sorted, c, k);
        WithXAppend(p, [c], k);
        WithXCons(c, [], k);
        assert [c] + [] == [c];
      }
    }
  }

  /** The sort is sorted, a permutation, and stable. */
  lemma SortByXSound(s: seq<Candle>)
    ensures SortedByX(SortByX(s))
    ensures multiset(SortByX(s)) == multiset(s)
    ensures forall k :: WithX(SortByX(s), k) == WithX(s, k)
  {
    SortByXPermutes(s);
    SortByXStable(s);
  }

  // ---------------------------------------------------------------- detect_candles

  /** `detect_candles` after `findContours`: keeps contours with `50 < area < 500`, a tall and
      thin box and a centre inside the image, labels each by its centre pixel and sorts the
      result left to right, stably. */
  method DetectCandles(contours: seq<Contour>, img: ColorImage) returns (candles: seq<Candle>)
    requires img.Rectangular()
    ensures candles == SortByX(Kept(contours, img))
    ensures SortedByX(candles)
    ensures multiset(candles) == multiset(Kept(contours, img))
    ensures |candles| == |Kept(contours, img)|
    ensures forall k :: WithX(candles, k) == WithX(Kept(contours, img), k)
    ensures forall i :: 0 <= i < |candles| ==> WellShaped(candles[i], img)
  {
    candles := [];
    var i := 0;
    while i < |contours|
      invariant 0 <= i <= |contours|
      invariant candles == Kept(contours[..i], img)
    {
      var c := contours[i];
      KeptSnoc(contours, i, img);
      if CandleMinArea < c.area < CandleMaxArea {
        var aspectRatio := if c.w > 0 then c.h as real / c.w as real else 0.0;
        if aspectRatio > 1.5 {
          var centerX := c.x + c.w / 2;
          var centerY := c.y + c.h / 2;
          if 0 <= centerX < img.Width() && 0 <= centerY < img.Height() {
            var color := img.rows[centerY][centerX];
            var isGreen := IsGreen(color);
            var isRed := IsRed(color);
            var colorClass := if isGreen then Green else if isRed then Red else Unknown;
            candles := candles + [Candle(c.x, c.y, c.w, c.h, centerX, centerY, colorClass, c.area)];
          }
        }
      }
      i := i + 1;
    }
    assert contours[..|contours|] == contours;
    candles := SortByX(candles);
    SortedKeptSound(contours, img);
  }

  /** One more contour adds its candle to the end of the kept list when it is accepted. */
  lemma KeptSnoc(contours: seq<Contour>, i: nat, img: ColorImage)
    requires img.Rectangular() && i < |contours|
    ensures Kept(contours[..i + 1], img) ==
              Kept(contours[..i], img) +
                (if Accepted(contours[i], img) then [CandleOf(contours[i], img)] else [])
  {
    assert contours[..i + 1][..i] == contours[..i];
  }

  /** The sorted kept candles: ordered, a stable permutation of the kept ones, and well
      shaped. */
  lemma SortedKeptSound(contours: seq<Contour>, img: ColorImage)
    requires img.Rectangular()
    ensures var kept := Kept(contours, img);
      SortedByX(SortByX(kept)) &&
      multiset(SortByX(kept)) == multiset(kept) &&
      |SortByX(kept)| == |kept| &&
      (forall k :: WithX(SortByX(kept), k) == WithX(kept, k)) &&
      (forall i :: 0 <= i < |SortByX(kept)| ==> WellShaped(SortByX(kept)[i], img))
  {
    var kept := Kept(contours, img);
    SortByXSound(kept);
    SortedKeptAreWellShaped(contours, img);
    assert |SortByX(kept)| == |multiset(SortByX(kept))| == |multiset(kept)| == |kept|;
  }

  /** Sorting keeps every candle well shaped. */
  lemma SortedKeptAreWellShaped(contours: seq<Contour>, img: ColorImage)
    requires img.Rectangular()
    ensures forall i :: 0 <= i < |SortByX(Kept(contours, img))| ==>
              WellShaped(SortByX(Kept(contours, img))[i], img)
  {
    var kept := Kept(contours, img);
    var sorted := SortByX(kept);
    KeptAreWellShaped(contours, img);
    SortByXSound(kept);
    forall i | 0 <= i < |sorted| ensures WellShaped(sorted[i], img) {
      assert sorted[i] in multiset(kept);
      var j :| 0 <= j < |kept| && kept[j] == sorted[i];
    }
  }

  // ---------------------------------------------------------------- extract_ohlc_from_candles

  /** One record per candle: high and low are the box top and bottom divided by the image
      height, and the body is the middle 60% of the box; a green candle opens at the body's
      upper pixel row, every other candle closes there. */
  function BarOf(c: Candle, imageHeight: int): Bar
    requires imageHeight != 0
  {
    var h := imageHeight as real;
    var bodyStart := c.y as real + c.height as real * 0.2;
    var bodyEnd := c.y as real + c.height as real * 0.8;
    if c.color == Green then
      Bar(bodyStart / h, c.y as real / h, (c.y + c.height) as real / h, bodyEnd / h, c.color)
    else
      Bar(bodyEnd / h, c.y as real / h, (c.y + c.height) as real / h, bodyStart / h, c.color)
  }

  /** What `extract_ohlc_from_candles` gives: None for no candles, the ZeroDivisionError its
      first division raises when the height is zero, or one bar per candle. */
  datatype OhlcExtraction = NoCandles | ZeroDivision | Ohlc(bars: seq<Bar>)

  /** `extract_ohlc_from_candles`: no candles give None; otherwise a zero height raises on
      the first candle, and any other height gives one bar per candle, in order. */
  method ExtractOhlc(candles: seq<Candle>, imageHeight: int) returns (ohlc: OhlcExtraction)
    ensures ohlc.NoCandles? <==> candles == []
    ensures ohlc.ZeroDivision? <==> candles != [] && imageHeight == 0
    ensures ohlc.Ohlc? ==> |ohlc.bars| == |candles|
    ensures ohlc.Ohlc? ==> forall i :: 0 <= i < |candles| ==>
              ohlc.bars[i] == BarOf(candles[i], imageHeight) && ohlc.bars[i].color == candles[i].color
  {
    if candles == [] {
      return NoCandles;
    }
    if imageHeight == 0 {
      return ZeroDivision;
    }
    var bars: seq<Bar> := [];
    for i := 0 to |candles|
      invariant |bars| == i
      invariant forall j :: 0 <= j < i ==> bars[j] == BarOf(candles[j], imageHeight)
    {
      var candle := candles[i];
      var h := imageHeight as real;
      var highPrice := candle.y as real / h;
      var lowPrice := (candle.y + candle.height) as real / h;
      var bodyStart := candle.y as real + candle.height as real * 0.2;
      var bodyEnd := candle.y as real + candle.height as real * 0.8;
      var openPrice, closePrice;
      if candle.color == Green {
        openPrice, closePrice := bodyStart / h, bodyEnd / h;
      } else {
        openPrice, closePrice := bodyEnd / h, bodyStart / h;
      }
      bars := bars + [Bar(openPrice, highPrice, lowPrice, closePrice, candle.color)];
    }
    return Ohlc(bars);
  }

  /** Numerically `high <= min(open, close) <= max(open, close) <= low`: the pixel rows are
      divided by the height without inverting the axis, so "high" is the smaller number. */
  lemma BarOrdering(c: Candle, imageHeight: int)
    requires c.height >= 0 && imageHeight > 0
    ensures var b := BarOf(c, imageHeight);
      b.high <= Min(b.open, b.close) <= Max(b.open, b.close) <= b.low
  {
    var h := imageHeight as real;
    var y, ht := c.y as real, c.height as real;
    DivideMonotone(y, y + ht * 0.2, h);
    DivideMonotone(y + ht * 0.2, y + ht * 0.8, h);
    DivideMonotone(y + ht * 0.8, y + ht, h);
  }

  lemma DivideMonotone(a: real, b: real, h: real)
    requires a <= b && h > 0.0
    ensures a / h <= b / h
  {
    assert b / h - a / h == (b - a) / h;
  }

  lemma DivideStrict(a: real, b: real, h: real)
    requires a < b && h > 0.0
    ensures a / h < b / h
  {
    assert b / h - a / h == (b - a) / h;
  }

  /** For a candle of positive height the bar's "high" is strictly below its "low", so the
      invariant `high >= max(open, close)` of an upright price scale never holds. */
  lemma BarHighBelowLow(c: Candle, imageHeight: int)
    requires c.height > 0 && imageHeight > 0
    ensures var b := BarOf(c, imageHeight); b.high < Max(b.open, b.close) && b.high < b.low
  {
    var h := imageHeight as real;
    var y, ht := c.y as real, c.height as real;
    DivideStrict(y, y + ht * 0.2, h);
    DivideStrict(y, y + ht * 0.8, h);
    DivideStrict(y, y + ht, h);
  }

  /** A green candle opens at `(y + 0.2h) / H` and closes at `(y + 0.8h) / H`; red and unknown
      candles take the swapped assignment. */
  lemma BodyAssignment(c: Candle, imageHeight: int)
    requires imageHeight != 0
    ensures var b := BarOf(c, imageHeight);
      var lowerRow := (c.y as real + 0.2 * c.height as real) / imageHeight as real;
      var upperRow := (c.y as real + 0.8 * c.height as real) / imageHeight as real;
      (c.color == Green ==> b.open == lowerRow && b.close == upperRow) &&
      (c.color != Green ==> b.open == upperRow && b.close == lowerRow)
  {
  }

  // ---------------------------------------------------------------- detect_chart_grid

  predicate IsHorizontal(angle: real) { Abs(angle) < 10.0 || Abs(angle - 180.0) < 10.0 }

  predicate IsVertical(angle: real) { Abs(angle - 90.0) < 10.0 }

  /** Horizontal segments among `angles` (degrees, as `arctan2` reports them). */
  function CountHorizontal(angles: seq<real>): nat {
    if angles == [] then 0
    else CountHorizontal(angles[..|angles| - 1]) + (if IsHorizontal(angles[|angles| - 1]) then 1 else 0)
  }

  /** Vertical segments: the `elif` only counts an angle that is not already horizontal. */
  function CountVertical(angles: seq<real>): nat {
    if angles == [] then 0
    else
      var a := angles[|angles| - 1];
      CountVertical(angles[..|angles| - 1]) + (if !IsHorizontal(a) && IsVertical(a) then 1 else 0)
  }

  /** Every segment lands in at most one class. */
  lemma {:induction false} CountsBounded(angles: seq<real>)
    ensures CountHorizontal(angles) + CountVertical(angles) <= |angles|
  {
    if angles != [] {
      CountsBounded(angles[..|angles| - 1]);
    }
  }

  /** The counting loop of `detect_chart_grid`. */
  method CountLines(angles: seq<real>) returns (horizontal: nat, vertical: nat)
    ensures horizontal == CountHorizontal(angles) && vertical == CountVertical(angles)
    ensures horizontal + vertical <= |angles|
  {
    horizontal, vertical := 0, 0;
    for i := 0 to |angles|
      invariant horizontal == CountHorizontal(angles[..i])
      invariant vertical == CountVertical(angles[..i])
    {
      assert angles[..i + 1][..i] == angles[..i];
      var angle := angles[i];
      if Abs(angle) < 10.0 || Abs(angle - 180.0) < 10.0 {
        horizontal := horizontal + 1;
      } else if Abs(angle - 90.0) < 10.0 {
        vertical := vertical + 1;
      }
    }
    assert angles[..|angles|] == angles;
    CountsBounded(angles);
  }

  /** At least two horizontal and two vertical segments were found. */
  predicate HasGrid(lines: Option<seq<real>>) {
    lines.Some? && CountHorizontal(lines.value) >= 2 && CountVertical(lines.value) >= 2
  }

  /** `detect_chart_grid` after `HoughLinesP`: `None` (no segments found) is not a chart;
      otherwise at least two horizontal and two vertical segments are needed. */
  method DetectChartGrid(lines: Option<seq<real>>) returns (isChart: bool)
    ensures lines.None? ==> !isChart
    ensures lines.Some? ==> (isChart <==> CountHorizontal(lines.value) >= 2 && CountVertical(lines.value) >= 2)
    ensures isChart ==> |lines.value| >= 4
    ensures isChart == HasGrid(lines)
  {
    if lines.None? {
      return false;
    }
    var horizontal, vertical := CountLines(lines.value);
    return horizontal >= 2 && vertical >= 2;
  }
}

=== FILE: indicators.dfy ===
/** `SimpleIndicators` (app/ml/indicators.py) over exact reals. `np.std` is not modelled:
    Bollinger bands take the standard deviation of the window as a non-negative input. */
module Indicators {
  import opened Common

  // ---------------------------------------------------------------- sums and means

  function Sum(s: seq<real>): real {
    if s == [] then 0.0 else s[0] + Sum(s[1..])
  }

  /** `np.mean` of a non-empty sequence. */
  function Mean(s: seq<real>): real
    requires |s| > 0
  {
    Sum(s) / |s| as real
  }

  predicate Between(s: seq<real>, lo: real, hi: real) {
    forall i :: 0 <= i < |s| ==> lo <= s[i] <= hi
  }

  lemma {:induction false} SumBounds(s: seq<real>, lo: real, hi: real)
    requires Between(s, lo, hi)
    ensures |s| as real * lo <= Sum(s) <= |s| as real * hi
  {
    if s != [] {
      SumBounds(s[1..], lo, hi);
    }
  }

  /** A mean lies between any bounds of the values it averages. */
  lemma MeanBounds(s: seq<real>, lo: real, hi: real)
    requires |s| > 0 && Between(s, lo, hi)
    ensures lo <= Mean(s) <= hi
  {
    var n := |s| as real;
    SumBounds(s, lo, hi);
    assert Mean(s) * n == Sum(s);
  }

  // ---------------------------------------------------------------- sma

  /** The closes `sma` averages: the last `period` ones, or all of them when fewer. */
  function Window(prices: seq<real>, period: nat): seq<real> {
    if |prices| < period then prices else prices[|prices| - period..]
  }

  /** `sma(prices, period)`: 0 for no prices, the mean of all prices when fewer than
      `period`, else the mean of the last `period`. */
  function Sma(prices: seq<real>, period: int): (r: real)
    requires period >= 1
    ensures prices == [] ==> r == 0.0
    ensures prices != [] ==> r == Mean(Window(prices, period))
  {
    if |prices| < period then (if |prices| > 0 then Mean(prices) else 0.0)
    else Mean(prices[|prices| - period..])
  }

  /** The moving average is the mean of a window of `min(n, period)` closes ending at the
      last one, so it lies between any bounds of that window. */
  lemma SmaWithinWindow(prices: seq<real>, period: int, lo: real, hi: real)
    requires period >= 1 && |prices| > 0 && Between(Window(prices, period), lo, hi)
    ensures |Window(prices, period)| == if |prices| < period then |prices| else period
    ensures Window(prices, period) == prices[|prices| - |Window(prices, period)|..]
    ensures lo <= Sma(prices, period) <= hi
  {
    var w := Window(prices, period);
    MeanBounds(w, lo, hi);
    assert Sma(prices, period) == Mean(w);
  }

  // ---------------------------------------------------------------- ema

  /** The smoothing factor `2 / (period + 1)`. */
  function Alpha(period: int): real
    requires period >= 1
  {
    2.0 / (period + 1) as real
  }

  lemma AlphaInUnitInterval(period: int)
    requires period >= 1
    ensures 0.0 < Alpha(period) <= 1.0
  {
    var d := (period + 1) as real;
    assert Alpha(period) * d == 2.0;
  }

  /** Element `i` of `_ema_series(data, period)`: `data[0]`, then
      `alpha * data[i] + (1 - alpha) * previous`. */
  function EmaAt(data: seq<real>, period: int, i: nat): real
    requires period >= 1 && i < |data|
  {
    if i == 0 then data[0]
    else EmaStep(data[i], EmaAt(data, period, i - 1), Alpha(period))
  }

  /** `price * alpha + previous * (1 - alpha)`. */
  function EmaStep(price: real, previous: real, alpha: real): real {
    price * alpha + previous * (1.0 - alpha)
  }

  lemma ConvexCombination(a: real, x: real, y: real, lo: real, hi: real)
    requires 0.0 <= a <= 1.0 && lo <= x <= hi && lo <= y <= hi
    ensures lo <= EmaStep(x, y, a) <= hi
  {
    assert x * a + y * (1.0 - a) - lo == (x - lo) * a + (y - lo) * (1.0 - a);
    assert hi - (x * a + y * (1.0 - a)) == (hi - x) * a + (hi - y) * (1.0 - a);
    ProductNonNegative(x - lo, a);
    ProductNonNegative(y - lo, 1.0 - a);
    ProductNonNegative(hi - x, a);
    ProductNonNegative(hi - y, 1.0 - a);
  }

  /** Every EMA value lies between any bounds of the data it smooths. */
  lemma {:induction false} EmaWithinBounds(data: seq<real>, period: int, i: nat, lo: real, hi: real)
    requires period >= 1 && i < |data| && Between(data, lo, hi)
    ensures lo <= EmaAt(data, period, i) <= hi
  {
    if i == 0 {
      assert lo <= data[0] <= hi;
    } else {
      var previous := EmaAt(data, period, i - 1);
      EmaWithinBounds(data, period, i - 1, lo, hi);
      AlphaInUnitInterval(period);
      assert lo <= data[i] <= hi;
      ConvexCombination(Alpha(period), data[i], previous, lo, hi);
      assert EmaAt(data, period, i) == EmaStep(data[i], previous, Alpha(period));
    }
  }

  /** The EMA of a flat series is flat. */
  lemma {:induction false} EmaOfConstant(data: seq<real>, period: int, i: nat, c: real)
    requires period >= 1 && i < |data| && forall j :: 0 <= j < |data| ==> data[j] == c
    ensures EmaAt(data, period, i) == c
  {
    if i > 0 {
      EmaOfConstant(data, period, i - 1, c);
    }
  }

  /** `_ema_series`: allocates a zero array the length of `data` and fills it in place. */
  method EmaSeries(data: seq<real>, period: int) returns (emaVals: array<real>)
    requires period >= 1 && |data| > 0
    ensures fresh(emaVals)
    ensures emaVals.Length == |data| && emaVals[0] == data[0]
    ensures forall i :: 1 <= i < |data| ==>
              emaVals[i] == EmaStep(data[i], emaVals[i - 1], Alpha(period))
    ensures forall i :: 0 <= i < |data| ==> emaVals[i] == EmaAt(data, period, i)
  {
    var alpha := Alpha(period);
    emaVals := new real[|data|](_ => 0.0);
    emaVals[0] := data[0];
    for i := 1 to |data|
      invariant forall j :: 0 <= j < i ==> emaVals[j] == EmaAt(data, period, j)
    {
      ghost var before := emaVals[..];
      emaVals[i] := EmaStep(data[i], emaVals[i - 1], alpha);
      assert emaVals[i] == EmaAt(data, period, i);
      assert forall j :: 0 <= j < i ==> emaVals[j] == before[j];
    }
    forall i | 1 <= i < |data|
      ensures emaVals[i] == EmaStep(data[i], emaVals[i - 1], Alpha(period))
    {
      assert emaVals[i] == EmaAt(data, period, i) && emaVals[i - 1] == EmaAt(data, period, i - 1);
    }
  }

  /** `ema(prices, period)`: the short-history fallback of `sma`, else the last element of
      the EMA series, which lies between the lowest and the highest price. */
  method Ema(prices: seq<real>, period: int) returns (r: real)
    requires period >= 1
    ensures |prices| < period ==> r == Sma(prices, period)
    ensures |prices| >= period ==> r == EmaAt(prices, period, |prices| - 1)
    ensures forall lo, hi :: |prices| > 0 && Between(prices, lo, hi) ==> lo <= r <= hi
  {
    if |prices| < period {
      r := if |prices| > 0 then Mean(prices) else 0.0;
      forall lo, hi | |prices| > 0 && Between(prices, lo, hi) ensures lo <= r <= hi {
        MeanBounds(prices, lo, hi);
      }
      return;
    }
    var alpha := Alpha(period);
    r := prices[0];
    for i := 1 to |prices|
      invariant r == EmaAt(prices, period, i - 1)
    {
      r := EmaStep(prices[i], r, alpha);
    }
    forall lo, hi | Between(prices, lo, hi) ensures lo <= r <= hi {
      EmaWithinBounds(prices, period, |prices| - 1, lo, hi);
    }
  }

  // ---------------------------------------------------------------- macd

  /** `ema_fast - ema_slow`, element by element. */
  function MacdLine(prices: seq<real>, fast: int, slow: int): (line: seq<real>)
    requires fast >= 1 && slow >= 1
    ensures |line| == |prices|
  {
    seq(|prices|, i requires 0 <= i < |prices| => EmaAt(prices, fast, i) - EmaAt(prices, slow, i))
  }

  /** `macd(prices, fast, slow, signal)`: `(0, 0, 0)` with fewer than `slow` prices; otherwise
      the last MACD value, the last value of its signal EMA, and their difference. */
  method Macd(prices: seq<real>, fast: int, slow: int, signal: int)
    returns (macd: real, signalValue: real, histogram: real)
    requires fast >= 1 && slow >= 1 && signal >= 1
    ensures |prices| < slow ==> macd == 0.0 && signalValue == 0.0 && histogram == 0.0
    ensures |prices| >= slow ==>
              macd == EmaAt(prices, fast, |prices| - 1) - EmaAt(prices, slow, |prices| - 1)
    ensures |prices| >= slow ==>
              signalValue == EmaAt(MacdLine(prices, fast, slow), signal, |prices| - 1)
    ensures histogram == macd - signalValue
  {
    if |prices| < slow {
      return 0.0, 0.0, 0.0;
    }
    var emaFast := EmaSeries(prices, fast);
    var emaSlow := EmaSeries(prices, slow);
    var macdLine := seq(|prices|, i requires 0 <= i < |prices| reads emaFast, emaSlow =>
                          emaFast[i] - emaSlow[i]);
    assert macdLine == MacdLine(prices, fast, slow);
    var signalLine := EmaSeries(macdLine, signal);
    var last := |prices| - 1;
    macd, signalValue, histogram := macdLine[last], signalLine[last], macdLine[last] - signalLine[last];
  }

  /** A flat price series has a zero MACD line, so the MACD, its signal and the histogram
      are all zero. */
  lemma FlatPricesGiveZeroMacd(prices: seq<real>, fast: int, slow: int, signal: int, c: real)
    requires fast >= 1 && slow >= 1 && signal >= 1 && |prices| >= slow
    requires forall j :: 0 <= j < |prices| ==> prices[j] == c
    ensures var line := MacdLine(prices, fast, slow);
      EmaAt(prices, fast, |prices| - 1) - EmaAt(prices, slow, |prices| - 1) == 0.0 &&
      EmaAt(line, signal, |prices| - 1) == 0.0
  {
    var line := MacdLine(prices, fast, slow);
    forall j | 0 <= j < |line| ensures line[j] == 0.0 {
      EmaOfConstant(prices, fast, j, c);
      EmaOfConstant(prices, slow, j, c);
    }
    EmaOfConstant(line, signal, |prices| - 1, 0.0);
  }

  // ---------------------------------------------------------------- rsi

  /** `np.diff(prices)`. */
  function Deltas(prices: seq<real>): (d: seq<real>)
    ensures |d| == if |prices| == 0 then 0 else |prices| - 1
  {
    if |prices| == 0 then [] else seq(|prices| - 1, i requires 0 <= i < |prices| - 1 => prices[i + 1] - prices[i])
  }

  /** `seed[seed >= 0].sum()` */
  function GainSum(s: seq<real>): real {
    if s == [] then 0.0 else (if s[0] >= 0.0 then s[0] else 0.0) + GainSum(s[1..])
  }

  /** `-seed[seed < 0].sum()` */
  function LossSum(s: seq<real>): real {
    if s == [] then 0.0 else (if s[0] < 0.0 then -s[0] else 0.0) + LossSum(s[1..])
  }

  lemma {:induction false} SeedSumsNonNegative(s: seq<real>)
    ensures GainSum(s) >= 0.0 && LossSum(s) >= 0.0
  {
    if s != [] {
      SeedSumsNonNegative(s[1..]);
    }
  }

  function MinNat(a: nat, b: nat): nat { if a <= b then a else b }

  /** The average gain `up` and the average loss `down`. */
  datatype Smoothed = Smoothed(up: real, down: real)

  /** Wilder's smoothing of an average with a new observation `x`:
      `(avg * (period - 1) + x) / period`. */
  function Smooth(avg: real, x: real, period: int): real
    requires period >= 1
  {
    (avg * (period - 1) as real + x) / period as real
  }

  /** One step of the loop: a non-negative delta feeds the average gain, a negative one the
      average loss, and the other average decays. */
  function WilderStep(up: real, down: real, delta: real, period: int): Smoothed
    requires period >= 1
  {
    if delta >= 0.0 then Smoothed(Smooth(up, delta, period), Smooth(down, 0.0, period))
    else Smoothed(Smooth(up, 0.0, period), Smooth(down, -delta, period))
  }

  /** Smoothing keeps averages of non-negative observations non-negative. */
  lemma SmoothNonNegative(avg: real, x: real, period: int)
    requires period >= 1 && avg >= 0.0 && x >= 0.0
    ensures Smooth(avg, x, period) >= 0.0
  {
    ProductNonNegative(avg, (period - 1) as real);
    QuotientNonNegative(avg * (period - 1) as real + x, period as real);
  }

  /** `(up, down)` after the loop has handled `deltas[period..k]`; for `k <= period` the
      averages of the seed `deltas[:period]`. */
  function Averages(deltas: seq<real>, period: int, k: nat): Smoothed
    requires period >= 1 && k <= |deltas|
  {
    if k <= period then
      var seed := deltas[..MinNat(period, |deltas|)];
      Smoothed(GainSum(seed) / period as real, LossSum(seed) / period as real)
    else
      var prev := Averages(deltas, period, k - 1);
      WilderStep(prev.up, prev.down, deltas[k - 1], period)
  }

  /** The average gain and the average loss never become negative. */
  lemma {:induction false} AveragesNonNegative(deltas: seq<real>, period: int, k: nat)
    requires period >= 1 && k <= |deltas|
    ensures Averages(deltas, period, k).up >= 0.0 && Averages(deltas, period, k).down >= 0.0
  {
    if k <= period {
      var seed := deltas[..MinNat(period, |deltas|)];
      SeedSumsNonNegative(seed);
      QuotientNonNegative(GainSum(seed), period as real);
      QuotientNonNegative(LossSum(seed), period as real);
    } else {
      AveragesNonNegative(deltas, period, k - 1);
      var prev := Averages(deltas, period, k - 1);
      var d := deltas[k - 1];
      SmoothNonNegative(prev.up, if d >= 0.0 then d else 0.0, period);
      SmoothNonNegative(prev.down, if d >= 0.0 then 0.0 else -d, period);
    }
  }

  lemma QuotientNonNegative(a: real, b: real)
    requires a >= 0.0 && b > 0.0
    ensures a / b >= 0.0
  {
    assert (a / b) * b == a;
  }

  /** `100 - 100 / (1 + up / down)`, or 100 when there was no loss. */
  function RsiOf(up: real, down: real): real
    requires up >= 0.0 && down >= 0.0
  {
    if down == 0.0 then 100.0 else 100.0 - 100.0 / (1.0 + up / down)
  }

  /** The value `rsi(prices, period)` returns. */
  function RsiSpec(prices: seq<real>, period: int): real
    requires period >= 1
  {
    if |prices| < period then 50.0
    else
      var deltas := Deltas(prices);
      var avg := Averages(deltas, period, |deltas|);
      AveragesNonNegative(deltas, period, |deltas|);
      RsiOf(avg.up, avg.down)
  }

  /** With a non-negative average gain and a positive average loss the RSI is in [0, 100). */
  lemma RsiOfRange(up: real, down: real)
    requires up >= 0.0 && down > 0.0
    ensures 0.0 <= RsiOf(up, down) < 100.0
  {
    var rs := up / down;
    QuotientNonNegative(up, down);
    var q := 100.0 / (1.0 + rs);
    assert q * (1.0 + rs) == 100.0;
    assert q > 0.0;
    assert q <= 100.0;
  }

  /** `rsi(prices, period)`: 50 for fewer than `period` prices; 100 when the smoothed loss is
      zero; otherwise a value in [0, 100). */
  method Rsi(prices: seq<real>, period: int) returns (r: real)
    requires period >= 1
    ensures r == RsiSpec(prices, period)
    ensures |prices| < period ==> r == 50.0
    ensures |prices| >= period ==>
              var deltas := Deltas(prices);
              (Averages(deltas, period, |deltas|).down == 0.0 <==> r == 100.0)
    ensures 0.0 <= r <= 100.0
  {
    if |prices| < period {
      return 50.0;
    }
    var deltas := Deltas(prices);
    var seed := deltas[..MinNat(period, |deltas|)];
    var up := GainSum(seed) / period as real;
    var down := LossSum(seed) / period as real;
    var i := period;
    while i < |deltas|
      invariant period <= i && (i == period || i <= |deltas|)
      invariant Smoothed(up, down) == Averages(deltas, period, MinNat(i, |deltas|))
    {
      var delta := deltas[i];
      if delta >= 0.0 {
        up := Smooth(up, delta, period);
        down := Smooth(down, 0.0, period);
      } else {
        up := Smooth(up, 0.0, period);
        down := Smooth(down, -delta, period);
      }
      i := i + 1;
    }
    AveragesNonNegative(deltas, period, |deltas|);
    if down == 0.0 {
      return 100.0;
    }
    RsiOfRange(up, down);
    var rs := up / down;
    r := 100.0 - 100.0 / (1.0 + rs);
  }

  // ---------------------------------------------------------------- bollinger_bands

  datatype Bands = Bands(upper: real, middle: real, lower: real)

  /** `bollinger_bands(prices, period, std_dev)` where `std` is what `np.std` returns for the
      last `period` prices: the middle band is always the `sma`; with enough history the outer
      bands sit `std_dev * std` above and below it, otherwise all three coincide. */
  function Bollinger(prices: seq<real>, period: int, stdDev: real, std: real): (b: Bands)
    requires period >= 1 && std >= 0.0
    ensures b.middle == Sma(prices, period)
    ensures |prices| < period ==> b.upper == b.middle == b.lower
    ensures |prices| >= period ==> b.upper - b.middle == b.middle - b.lower == std * stdDev
    ensures stdDev >= 0.0 ==> b.lower <= b.middle <= b.upper
  {
    if |prices| < period then
      var sma := if |prices| > 0 then Mean(prices) else 0.0;
      Bands(sma, sma, sma)
    else
      var sma := Sma(prices, period);
      Bands(sma + std * stdDev, sma, sma - std * stdDev)
  }
}

=== FILE: keyboards.dfy ===
/** The inline keyboards of app/bot/keyboards.py that carry data back to the handlers: the
    indicator chooser, the feedback buttons and the timeframe chooser. */
module Keyboards {
  import opened Common
  import opened SettingsHandlers
  import Predictor

  datatype Button = Button(text: string, callbackData: string)

  /** The indicator buttons in order: a display name and the key of its callback data
      `indicator_<key>`. */
  const IndicatorChoices: seq<(string, string)> := [
    ("RSI", "rsi"),
    ("MACD", "macd"),
    ("SMA", "sma"),
    ("EMA", "ema"),
    ("Bollinger", "bb"),
    ("Stochastic", "stoch"),
    ("Ichimoku", "ichi"),
    ("ATR", "atr")
  ]

  function IndicatorCallback(key: string): string {
    "indicator_" + key
  }

  const CheckMark: string := "✅ "

  /** The button of an indicator: its name, marked when it is selected. */
  function IndicatorButton(choice: (string, string), selected: IndicatorList): (b: Button)
    ensures b.callbackData == IndicatorCallback(choice.1)
    ensures Some(choice.0) in selected ==> b.text == CheckMark + choice.0
    ensures Some(choice.0) !in selected ==> b.text == choice.0
  {
    Button(if Some(choice.0) in selected then CheckMark + choice.0 else choice.0,
           IndicatorCallback(choice.1))
  }

  /** The buttons of a list of indicators, in order. */
  function IndicatorButtons(choices: seq<(string, string)>, selected: IndicatorList)
    : (buttons: seq<Button>)
    ensures |buttons| == |choices|
    ensures forall i :: 0 <= i < |buttons| ==> buttons[i] == IndicatorButton(choices[i], selected)
  {
    seq(|choices|, i requires 0 <= i < |choices| => IndicatorButton(choices[i], selected))
  }

  function Flatten(rows: seq<seq<Button>>): seq<Button> {
    if rows == [] then [] else Flatten(rows[..|rows| - 1]) + rows[|rows| - 1]
  }

  lemma FlattenSnoc(rows: seq<seq<Button>>, row: seq<Button>)
    ensures Flatten(rows + [row]) == Flatten(rows) + row
  {
    assert (rows + [row])[..|rows|] == rows;
  }

  lemma PrefixSnoc<T>(s: seq<T>, i: nat)
    requires i < |s|
    ensures s[..i + 1] == s[..i] + [s[i]]
  {
  }

  const AllNoneRow: seq<Button> :=
    [Button("✅ Выбрать все", "indicators_all"), Button("❌ Очистить", "indicators_none")]

  const BackToSettingsRow: seq<Button> := [Button("↩️ Назад", "back_to_settings")]

  /** The loop of `get_indicators_keyboard`: a button per indicator, a row flushed when it
      holds two buttons or after the last indicator. All rows hold two buttons except, for
      an odd number of indicators, the last one. */
  method IndicatorRows(choices: seq<(string, string)>, selected: IndicatorList)
    returns (rows: seq<seq<Button>>)
    ensures Flatten(rows) == IndicatorButtons(choices, selected)
    ensures |rows| == (|choices| + 1) / 2
    ensures forall r :: 0 <= r < |rows| ==>
              |rows[r]| == 2 || (|rows[r]| == 1 && r == |rows| - 1 && |choices| % 2 == 1)
  {
    ghost var buttons := IndicatorButtons(choices, selected);
    ghost var short := false;
    rows := [];
    var row: seq<Button> := [];
    for i := 0 to |choices|
      invariant 2 * |rows| + |row| == i + (if short then 1 else 0) && |row| <= 1
      invariant short ==> i == |choices| && row == []
      invariant i == |choices| ==> row == []
      invariant forall r :: 0 <= r < |rows| ==>
                  |rows[r]| == 2 || (short && r == |rows| - 1 && |rows[r]| == 1)
      invariant Flatten(rows) + row == buttons[..i]
    {
      var b := IndicatorButton(choices[i], selected);
      PrefixSnoc(buttons, i);
      row := row + [b];
      assert Flatten(rows) + row == buttons[..i + 1];
      if |row| == 2 || i == |choices| - 1 {
        if |row| == 1 {
          short := true;
        }
        FlattenSnoc(rows, row);
        rows := rows + [row];
        row := [];
      }
    }
    assert buttons[..|choices|] == buttons;
  }

  /** `get_indicators_keyboard(selected_indicators)`: the eight indicator buttons two to a
      row, then the all/none row and the back row. */
  method IndicatorsKeyboard(selectedIndicators: Option<IndicatorList>)
    returns (keyboard: seq<seq<Button>>)
    ensures |keyboard| == 6
    ensures forall r :: 0 <= r < 4 ==> |keyboard[r]| == 2
    ensures Flatten(keyboard[..4]) ==
              IndicatorButtons(IndicatorChoices,
                               if selectedIndicators.None? then [] else selectedIndicators.value)
    ensures keyboard[4] == AllNoneRow && keyboard[5] == BackToSettingsRow
  {
    var selected := if selectedIndicators.None? then [] else selectedIndicators.value;
    assert |IndicatorChoices| == 8;
    var rows := IndicatorRows(IndicatorChoices, selected);
    keyboard := rows + [AllNoneRow, BackToSettingsRow];
    assert keyboard[..4] == rows;
  }

  /** Every indicator button's key is in the handler's map, under the name the button
      shows. */
  lemma IndicatorKeysAreMapped()
    ensures forall i :: 0 <= i < |IndicatorChoices| ==>
              IndicatorChoices[i].1 in IndicatorKeyMap &&
              IndicatorKeyMap[IndicatorChoices[i].1] == IndicatorChoices[i].0
  {
  }

  /** So every indicator button toggles exactly the indicator it shows. */
  lemma IndicatorButtonTogglesItsName(i: nat, current: IndicatorList)
    requires i < |IndicatorChoices|
    ensures IndicatorsChoice(IndicatorCallback(IndicatorChoices[i].1), current) ==
              Some(Toggle(current, Some(IndicatorChoices[i].0)))
  {
    IndicatorKeysAreMapped();
    assert IndicatorCallback(IndicatorChoices[i].1) == "indicator" + "_" + IndicatorChoices[i].1;
    FieldAfterRoundTrip("indicator", IndicatorChoices[i].1);
  }

  /** The all/none buttons send `indicators_all` and `indicators_none`, which do not end in
      `set_indicators` and do not start with `indicator_`: neither the pattern that routes to
      the indicator handler nor the handler's own parse selects anything for them, so
      pressing them changes no setting. */
  lemma AllNoneButtonsSelectNothing(current: IndicatorList)
    ensures forall b :: b in AllNoneRow ==>
              !StartsWith(b.callbackData, "indicator_") &&
              IndicatorsChoice(b.callbackData, current).None? &&
              !EndsWith(b.callbackData, "set_indicators")
  {
    assert "indicator_"[9] == '_';
    assert "indicators_all"[9] == 's' && "indicators_none"[9] == 's';
    assert "indicators_all"[|"indicators_all"| - 1] == 'l';
    assert "indicators_none"[|"indicators_none"| - 1] == 'e';
    assert "set_indicators"[|"set_indicators"| - 1] == 's';
  }

  // ---------------------------------------------------------------- feedback

  /** `f'feedback_{prediction_id}_{result}'`. */
  function FeedbackCallback(predictionId: nat, result: string): (data: string)
    ensures StartsWith(data, "feedback_")
  {
    "feedback_" + NatToString(predictionId) + "_" + result
  }

  /** `get_feedback_keyboard(prediction_id)`. */
  function FeedbackKeyboard(predictionId: nat): (keyboard: seq<seq<Button>>)
    ensures |keyboard| == 4 && forall r :: 0 <= r < 4 ==> |keyboard[r]| == 1
    ensures keyboard[0][0].callbackData == FeedbackCallback(predictionId, "correct")
    ensures keyboard[1][0].callbackData == FeedbackCallback(predictionId, "incorrect")
    ensures keyboard[2][0].callbackData == FeedbackCallback(predictionId, "partial")
  {
    [[Button("✅ Правильно", FeedbackCallback(predictionId, "correct"))],
     [Button("❌ Неправильно", FeedbackCallback(predictionId, "incorrect"))],
     [Button("➡️ Частично правильно", FeedbackCallback(predictionId, "partial"))],
     [Button("↩️ Назад", "back_to_main")]]
  }

  // ---------------------------------------------------------------- timeframe

  /** `get_timeframe_keyboard()`. */
  const TimeframeKeyboard: seq<seq<Button>> := [
    [Button("1 минута", "timeframe_1m"), Button("5 минут", "timeframe_5m")],
    [Button("15 минут", "timeframe_15m"), Button("30 минут", "timeframe_30m")],
    [Button("1 час", "timeframe_1h"), Button("4 часа", "timeframe_4h")],
    [Button("1 день", "timeframe_1d")],
    [Button("↩️ Назад", "back_to_settings")]
  ]

  /** The codes of the timeframe buttons, in order. */
  const TimeframeCodes: seq<string> := ["1m", "5m", "15m", "30m", "1h", "4h", "1d"]

  /** The timeframe buttons send `timeframe_<code>` for the seven codes of the predictor's
      multiplier table, and the handler stores exactly that code. */
  lemma TimeframeButtonsMatchMultiplierTable()
    ensures forall i :: 0 <= i < 7 ==>
              TimeframeKeyboard[i / 2][i % 2].callbackData == "timeframe_" + TimeframeCodes[i]
    ensures forall i :: 0 <= i < 7 ==>
              Choice("timeframe", "timeframe_" + TimeframeCodes[i]) == Some(TimeframeCodes[i])
    ensures forall code :: code in Predictor.TimeframeMultiplier <==> code in TimeframeCodes
  {
    forall i | 0 <= i < 7
      ensures Choice("timeframe", "timeframe_" + TimeframeCodes[i]) == Some(TimeframeCodes[i])
    {
      assert "timeframe_" + TimeframeCodes[i] == "timeframe" + "_" + TimeframeCodes[i];
      FieldAfterRoundTrip("timeframe", TimeframeCodes[i]);
    }
    assert Predictor.TimeframeMultiplier.Keys == {"1m", "5m", "15m", "30m", "1h", "4h", "1d"};
  }
}

=== FILE: prediction_service.dfy ===
/** `PredictionService` (app/services/prediction_service.py): the order in which an uploaded
    chart is checked, predicted and stored, and the lookup tables and labels of the reply.
    Decoding and the OpenCV stages are inputs: a picture is either undecodable (with the
    message of the exception it raised) or comes with the angles of its line segments, its
    contours and its colour pixels. */
module PredictionService {
  import opened Common
  import opened ImageProcessor
  import opened Predictor
  import opened Crud

  const NotAChartError: string :=
    "Изображение не содержит свечной график. Пожалуйста, отправьте изображение с четким графиком свечей."

  const TooFewCandlesError: string :=
    "Не удалось обнаружить достаточное количество свечей. Убедитесь, что график четкий и содержит не менее 10 свечей."

  /** The reply to an exception raised during the analysis. */
  function ServiceError(message: string): string {
    "Ошибка при анализе: " + message
  }

  /** The fewest candles a chart must show. */
  const MinCandles: nat := 10

  datatype Picture =
    | Undecodable(message: string)
    | Decoded(lineAngles: Option<seq<real>>, contours: seq<Contour>, color: ColorImage)

  /** The dictionary `analyze_image` returns: only an error, or the prediction and the id of
      its stored row. */
  datatype Analysis = Failed(error: string) | Analysed(prediction: Prediction, predictionId: nat)

  /** The prediction `analyze_image` asks for, given the user's settings. */
  function RequestedPrediction(draw: Option<Draw>, userSettings: Settings): (p: Prediction)
    requires draw.Some? ==> ValidDraw(draw.value)
    ensures p.timeframe == TextSetting(userSettings, "timeframe", "5m")
    ensures p.sensitivity == TextSetting(userSettings, "sensitivity", "medium")
    ensures p.indicators == IndicatorsOrDefault(Some(IndicatorsSetting(userSettings)))
    ensures userSettings == map[] ==>
              p.timeframe == "5m" && p.sensitivity == "medium" && p.indicators == DefaultIndicators
  {
    PredictOrFallback(draw, TextSetting(userSettings, "timeframe", "5m"),
                      Some(IndicatorsSetting(userSettings)),
                      TextSetting(userSettings, "sensitivity", "medium"))
  }

  /** `analyze_image(image_bytes, user_id, db, user_settings)`: an undecodable picture, a
      picture without a grid and a chart with fewer than ten candles are rejected in that
      order, with an error and nothing stored; otherwise the prediction is stored and
      returned with its id, unless there is no statistics row, where `create_prediction`
      raises and the error is returned with nothing stored. */
  method AnalyzeImage(db: Database, picture: Picture, userId: int, userSettings: Settings,
                      draw: Option<Draw>, imagePath: string, now: int)
    returns (result: Analysis)
    requires db.Valid()
    requires picture.Decoded? ==> picture.color.Rectangular()
    requires draw.Some? ==> ValidDraw(draw.value)
    modifies db
    ensures db.Valid() && db.users == old(db.users)
    ensures picture.Undecodable? ==> result == Failed(ServiceError(picture.message))
    ensures picture.Decoded? && !HasGrid(picture.lineAngles) ==> result == Failed(NotAChartError)
    ensures picture.Decoded? && HasGrid(picture.lineAngles) &&
            |Kept(picture.contours, picture.color)| < MinCandles ==>
              result == Failed(TooFewCandlesError)
    ensures picture.Decoded? && HasGrid(picture.lineAngles) &&
            |Kept(picture.contours, picture.color)| >= MinCandles && old(db.stats).None? ==>
              result == Failed(ServiceError(NoneCounterMessage))
    ensures result.Analysed? <==>
              picture.Decoded? && HasGrid(picture.lineAngles) &&
              |Kept(picture.contours, picture.color)| >= MinCandles && old(db.stats).Some?
    ensures result.Failed? ==> db.predictions == old(db.predictions) && db.stats == old(db.stats)
    ensures result.Analysed? ==>
              var p := result.prediction;
              p == RequestedPrediction(draw, userSettings) &&
              db.predictions == old(db.predictions) + [PredictionRow(
                result.predictionId, userId, imagePath, p.timeframe,
                IndicatorsSetting(userSettings), DirectionName(p.direction), p.confidence,
                p.takeProfit, p.stopLoss, p.support, p.resistance, p.pivot, now, None, None)] &&
              db.stats == Some(AfterPrediction(old(db.stats).value))
  {
    if picture.Undecodable? {
      return Failed(ServiceError(picture.message));
    }
    var isChart := DetectChartGrid(picture.lineAngles);
    if !isChart {
      return Failed(NotAChartError);
    }
    var candles := DetectCandles(picture.contours, picture.color);
    if |candles| < MinCandles {
      return Failed(TooFewCandlesError);
    }
    var timeframe := TextSetting(userSettings, "timeframe", "5m");
    var indicators := IndicatorsSetting(userSettings);
    var sensitivity := TextSetting(userSettings, "sensitivity", "medium");
    var p := PredictOrFallback(draw, timeframe, Some(indicators), sensitivity);
    var inserted := db.CreatePrediction(userId, imagePath, timeframe, indicators,
                                        DirectionName(p.direction), p.confidence, p.takeProfit,
                                        p.stopLoss, p.support, p.resistance, p.pivot, now);
    if inserted.NoneCounterError? {
      return Failed(ServiceError(NoneCounterMessage));
    }
    result := Analysed(p, inserted.row.id);
  }

  // ---------------------------------------------------------------- format_prediction_response

  /** `_get_expiration_time`: minutes a prediction stays valid; 15 for an unknown code. */
  function ExpirationMinutes(timeframe: string): (minutes: nat)
    ensures minutes >= 5
    ensures timeframe !in TimeframeMultiplier ==> minutes == 15
  {
    match timeframe
    case "1m" => 5
    case "5m" => 15
    case "15m" => 45
    case "30m" => 90
    case "1h" => 180
    case "4h" => 720
    case "1d" => 1440
    case _ => 15
  }

  /** `_get_next_analysis_time`: minutes until the next analysis; 5 for an unknown code. */
  function NextAnalysisMinutes(timeframe: string): (minutes: nat)
    ensures minutes >= 1
    ensures timeframe !in TimeframeMultiplier ==> minutes == 5
  {
    match timeframe
    case "1m" => 1
    case "5m" => 5
    case "15m" => 15
    case "30m" => 30
    case "1h" => 60
    case "4h" => 240
    case "1d" => 1440
    case _ => 5
  }

  /** A prediction never expires before the next analysis, for any code, known or not; an
      unknown code is treated as five minutes by both tables and by the multiplier. */
  lemma ExpirationCoversNextAnalysis(timeframe: string)
    ensures ExpirationMinutes(timeframe) >= NextAnalysisMinutes(timeframe)
    ensures timeframe !in TimeframeMultiplier ==>
              ExpirationMinutes(timeframe) == ExpirationMinutes("5m") &&
              NextAnalysisMinutes(timeframe) == NextAnalysisMinutes("5m") &&
              Multiplier(timeframe) == Multiplier("5m")
  {
  }

  /** Both tables grow with the timeframe, from one minute to one day. */
  lemma TablesGrowWithTimeframe()
    ensures var codes := ["1m", "5m", "15m", "30m", "1h", "4h", "1d"];
      forall i, j :: 0 <= i < j < |codes| ==>
        ExpirationMinutes(codes[i]) < ExpirationMinutes(codes[j]) &&
        NextAnalysisMinutes(codes[i]) < NextAnalysisMinutes(codes[j]) &&
        Multiplier(codes[i]) < Multiplier(codes[j])
  {
  }

  datatype Volatility = Low | Medium | High

  /** The volatility label of the reply: high above 2, medium above 1; a missing `atr_pct`
      counts as 1. */
  function VolatilityOf(atrPct: Option<real>): (v: Volatility)
    ensures atrPct.None? ==> v == Low
    ensures atrPct.Some? ==>
              (v == High <==> atrPct.value > 2.0) &&
              (v == Medium <==> 1.0 < atrPct.value <= 2.0) &&
              (v == Low <==> atrPct.value <= 1.0)
  {
    var atr := if atrPct.Some? then atrPct.value else 1.0;
    if atr > 2.0 then High else if atr > 1.0 then Medium else Low
  }

  /** The label grows with the value it describes. */
  lemma VolatilityMonotone(a: real, b: real)
    requires a <= b
    ensures VolatilityOf(Some(a)) == High ==> VolatilityOf(Some(b)) == High
    ensures VolatilityOf(Some(a)) == Medium ==> VolatilityOf(Some(b)) != Low
  {
  }

  /** The facts of the reply text that depend on the prediction, or the TypeError that
      joining an indicator list holding None raises. */
  datatype Reply =
    | ErrorText(text: string)
    | IndicatorJoinError
    | Summary(idTag: string, timeframe: string, volatility: Volatility, expirationMinutes: nat,
              nextAnalysisMinutes: nat)

  /** `f"#{prediction_id}" if prediction_id else "#NEW"`. */
  function IdTag(predictionId: Option<nat>): (tag: string)
    ensures predictionId.None? || predictionId.value == 0 ==> tag == "#NEW"
    ensures predictionId.Some? && predictionId.value != 0 ==>
              tag == "#" + NatToString(predictionId.value)
  {
    if predictionId.Some? && predictionId.value != 0 then "#" + NatToString(predictionId.value)
    else "#NEW"
  }

  /** `format_prediction_response(result, prediction_id)`: an error is passed through as it
      is. The reply joins the indicator names with `', '`, which raises for the None an
      unknown indicator key leaves in the list. A prediction carries no `features`, so its
      volatility is always low. */
  function FormatPredictionResponse(result: Analysis, predictionId: Option<nat>): (r: Reply)
    ensures result.Failed? ==> r == ErrorText(result.error)
    ensures result.Analysed? ==> (r.IndicatorJoinError? <==> None in result.prediction.indicators)
    ensures result.Analysed? && None !in result.prediction.indicators ==>
              r.Summary? && r.volatility == Low &&
              r.timeframe == result.prediction.timeframe &&
              r.expirationMinutes == ExpirationMinutes(result.prediction.timeframe) &&
              r.nextAnalysisMinutes == NextAnalysisMinutes(result.prediction.timeframe) &&
              r.expirationMinutes >= r.nextAnalysisMinutes &&
              r.idTag == IdTag(predictionId)
  {
    if result.Failed? then ErrorText(result.error)
    else if None in result.prediction.indicators then IndicatorJoinError
    else
      var timeframe := result.prediction.timeframe;
      ExpirationCoversNextAnalysis(timeframe);
      Summary(IdTag(predictionId), timeframe, VolatilityOf(None), ExpirationMinutes(timeframe),
              NextAnalysisMinutes(timeframe))
  }
}

=== FILE: predictor.dfy ===
/** The deterministic part of `PricePredictor.predict` (app/ml/predictor.py). The hashed seed
    and the `np.random` draw of a direction and a confidence are not modelled: the draw is a
    parameter, and a missing draw stands for the exception path. `round(x, 2)` is not
    modelled either, so every level is the exact value before rounding. */
module Predictor {
  import opened Common

  datatype Direction = Up | Down | Sideways

  /** The direction as the string stored in the result and in the database. */
  function DirectionName(d: Direction): (name: string)
    ensures name in {"UP", "DOWN", "SIDEWAYS"}
  {
    match d
    case Up => "UP"
    case Down => "DOWN"
    case Sideways => "SIDEWAYS"
  }

  lemma DirectionNameInjective(d: Direction, e: Direction)
    ensures DirectionName(d) == DirectionName(e) <==> d == e
  {
  }

  /** The timeframe codes the bot offers, with the level multiplier of each. */
  const TimeframeMultiplier: map<string, real> :=
    map["1m" := 0.5, "5m" := 1.0, "15m" := 1.5, "30m" := 2.0, "1h" := 2.5, "4h" := 3.0, "1d" := 4.0]

  /** `timeframe_multiplier.get(timeframe, 1.0)`: an unknown code counts as five minutes. */
  function Multiplier(timeframe: string): (m: real)
    ensures 0.5 <= m <= 4.0
    ensures timeframe !in TimeframeMultiplier ==> m == 1.0
    ensures timeframe in TimeframeMultiplier ==> m == TimeframeMultiplier[timeframe]
  {
    if timeframe in TimeframeMultiplier then TimeframeMultiplier[timeframe] else 1.0
  }

  /** The multiplier grows with the length of the timeframe, from one minute to one day. */
  lemma MultiplierGrowsWithTimeframe()
    ensures Multiplier("1m") < Multiplier("5m") < Multiplier("15m") < Multiplier("30m")
            < Multiplier("1h") < Multiplier("4h") < Multiplier("1d")
  {
  }

  /** `indicators or ['RSI', 'MACD']`: None and the empty list both give the default pair. */
  function IndicatorsOrDefault(indicators: Option<IndicatorList>): (r: IndicatorList)
    ensures r != []
    ensures indicators.Some? && indicators.value != [] ==> r == indicators.value
    ensures indicators.None? || indicators.value == [] ==> r == DefaultIndicators
  {
    if indicators.Some? && indicators.value != [] then indicators.value else DefaultIndicators
  }

  /** The result dictionary of `predict`. */
  datatype Prediction = Prediction(
    direction: Direction,
    confidence: real,
    takeProfit: real,
    stopLoss: real,
    support: real,
    resistance: real,
    pivot: real,
    riskLevel: string,
    volumeRecommendation: real,
    timeframe: string,
    indicators: IndicatorList,
    sensitivity: string)

  /** What the random generator would have drawn. */
  datatype Draw = Draw(direction: Direction, confidence: real)

  /** The uniform draw lies in [0.6, 0.9]. */
  predicate ValidDraw(draw: Draw) {
    0.6 <= draw.confidence <= 0.9
  }

  /** The base price the levels are placed around. */
  const BasePrice: real := 100.0

  /** Lines 24-59 of `predict`, for a given draw. */
  function Predict(draw: Draw, timeframe: string, indicators: Option<IndicatorList>,
                   sensitivity: string): (p: Prediction)
    requires ValidDraw(draw)
    ensures p.direction == draw.direction && p.confidence == draw.confidence
    ensures p.timeframe == timeframe && p.sensitivity == sensitivity
    ensures p.indicators == IndicatorsOrDefault(indicators)
    ensures p.riskLevel == "Medium" && p.volumeRecommendation == 2.0 * draw.confidence
    // the pivot lies strictly between the support and the resistance
    ensures p.support < p.pivot < p.resistance && p.pivot == (p.support + p.resistance) / 2.0
    // targets are positive: a profit to take and a loss to stop
    ensures p.takeProfit > 0.0 && p.stopLoss > 0.0
  {
    var m := Multiplier(timeframe);
    var c := draw.confidence;
    var levels := LevelsFor(draw.direction, c, m);
    Prediction(draw.direction, c, levels.takeProfit, levels.stopLoss, levels.support,
               levels.resistance, (levels.support + levels.resistance) / 2.0, "Medium", 2.0 * c,
               timeframe, IndicatorsOrDefault(indicators), sensitivity)
  }

  /** The levels the branch on the direction computes. */
  datatype Levels = Levels(takeProfit: real, stopLoss: real, support: real, resistance: real)

  /** Lines 28-42 of `predict`: take-profit and stop-loss percentages and the support and
      resistance prices, for direction `d`, confidence `c` and multiplier `m`. */
  function LevelsFor(d: Direction, c: real, m: real): (l: Levels)
    requires 0.6 <= c <= 0.9 && 0.5 <= m <= 4.0
    ensures l.support < BasePrice < l.resistance
    ensures l.takeProfit > 0.0 && l.stopLoss > 0.0
  {
    match d
    case Up =>
      PositiveProducts(c, m);
      Levels(1.5 * m * c, 0.8 * m * (1.0 - c * 0.5),
             BasePrice * (1.0 - 0.01 * m), BasePrice * (1.0 + 0.02 * m))
    case Down =>
      PositiveProducts(c, m);
      Levels(1.5 * m * c, 0.8 * m * (1.0 - c * 0.5),
             BasePrice * (1.0 - 0.02 * m), BasePrice * (1.0 + 0.01 * m))
    case Sideways =>
      Levels(0.5 * m, 0.3 * m, BasePrice * (1.0 - 0.01 * m), BasePrice * (1.0 + 0.01 * m))
  }

  lemma PositiveProducts(c: real, m: real)
    requires 0.6 <= c <= 0.9 && 0.5 <= m <= 4.0
    ensures 1.5 * m * c > 0.0 && 0.8 * m * (1.0 - c * 0.5) > 0.0
  {
    ProductPositive(1.5 * m, c);
    ProductPositive(0.8 * m, 1.0 - c * 0.5);
  }

  /** UP and DOWN share the take-profit `1.5·m·c` and the stop-loss `0.8·m·(1 - c/2)`; they
      differ only in where the support and the resistance are placed. */
  lemma TrendTargetsAgree(c: real, m: real)
    requires 0.6 <= c <= 0.9 && 0.5 <= m <= 4.0
    ensures LevelsFor(Up, c, m).takeProfit == LevelsFor(Down, c, m).takeProfit == 1.5 * m * c
    ensures LevelsFor(Up, c, m).stopLoss == LevelsFor(Down, c, m).stopLoss == 0.8 * m * (1.0 - c * 0.5)
  {
  }

  /** For UP the resistance is twice as far from the base price as the support; DOWN is the
      mirror image; SIDEWAYS is a symmetric band of `m` percent. */
  lemma BandOffsets(c: real, m: real)
    requires 0.6 <= c <= 0.9 && 0.5 <= m <= 4.0
    ensures var up := LevelsFor(Up, c, m);
      up.resistance - BasePrice == 2.0 * (BasePrice - up.support) == 2.0 * m
    ensures var down := LevelsFor(Down, c, m);
      BasePrice - down.support == 2.0 * (down.resistance - BasePrice) == 2.0 * m
    ensures var side := LevelsFor(Sideways, c, m);
      side.resistance - BasePrice == BasePrice - side.support == m &&
      side.takeProfit == 0.5 * m && side.stopLoss == 0.3 * m
    ensures LevelsFor(Up, c, m).support == LevelsFor(Sideways, c, m).support
    ensures LevelsFor(Down, c, m).resistance == LevelsFor(Sideways, c, m).resistance
  {
  }

  /** The pivot sits `m/2` above the base price for UP, `m/2` below it for DOWN, and on it for
      SIDEWAYS. */
  lemma PivotPlacement(draw: Draw, timeframe: string, indicators: Option<IndicatorList>,
                       sensitivity: string)
    requires ValidDraw(draw)
    ensures var p := Predict(draw, timeframe, indicators, sensitivity);
      var m := Multiplier(timeframe);
      p.pivot == match draw.direction
                 case Up => BasePrice + m / 2.0
                 case Down => BasePrice - m / 2.0
                 case Sideways => BasePrice
  {
  }

  /** The record of the `except` branch (lines 61-76): a fixed SIDEWAYS prediction. */
  function Fallback(timeframe: string, indicators: Option<IndicatorList>, sensitivity: string)
    : (p: Prediction)
    ensures p.direction == Sideways && p.confidence == 0.5 && p.pivot == BasePrice
    ensures p.support < p.pivot < p.resistance && p.pivot == (p.support + p.resistance) / 2.0
    ensures p.takeProfit == 0.5 && p.stopLoss == 0.3
    ensures p.riskLevel == "Medium" && p.volumeRecommendation == 2.0 * p.confidence
    ensures p.timeframe == timeframe && p.sensitivity == sensitivity
    ensures p.indicators == IndicatorsOrDefault(indicators)
  {
    Prediction(Sideways, 0.5, 0.5, 0.3, 99.5, 100.5, 100.0, "Medium", 1.0, timeframe,
               IndicatorsOrDefault(indicators), sensitivity)
  }

  /** `predict(image_data, timeframe, indicators, sensitivity)`: the draw seeded by the hash
      of the input array's shape, or None when reading the shape raised and the `except`
      branch ran. `analyze_image` always passes the (1, 64, 64, 1) array of
      `prepare_for_cnn`, so every picture gets the same draw. */
  function PredictOrFallback(draw: Option<Draw>, timeframe: string,
                             indicators: Option<IndicatorList>, sensitivity: string)
    : (p: Prediction)
    requires draw.Some? ==> ValidDraw(draw.value)
    ensures draw.None? ==> p == Fallback(timeframe, indicators, sensitivity)
    ensures draw.Some? ==> p.direction == draw.value.direction
    ensures p.support < p.pivot < p.resistance
    ensures 0.5 <= p.confidence <= 0.9 && p.riskLevel == "Medium"
    ensures p.timeframe == timeframe && p.indicators == IndicatorsOrDefault(indicators)
    ensures p.sensitivity == sensitivity
  {
    if draw.Some? then Predict(draw.value, timeframe, indicators, sensitivity)
    else Fallback(timeframe, indicators, sensitivity)
  }
}

=== FILE: settings.dfy ===
/** The settings callbacks of app/bot/handlers/settings.py: parsing of the callback data, the
    indicator toggle, and the labels echoed back to the user. Message editing is not
    modelled; each handler reports the value it stored. */
module SettingsHandlers {
  import opened Common
  import opened Crud

  // ---------------------------------------------------------------- callback fields

  /** `data.split('_')[1]` for data that starts with `<prefix>_`. */
  function FieldAfter(prefix: string, data: string): (field: string)
    requires '_' !in prefix && StartsWith(data, prefix + "_")
    // the field is the text after `<prefix>_` up to the next underscore or the end
    ensures '_' !in field
    ensures StartsWith(data[|prefix| + 1..], field)
    ensures |prefix| + 1 + |field| == |data| || data[|prefix| + 1 + |field|] == '_'
  {
    SplitPrefixed(prefix, '_', data);
    SplitFirstField(data[|prefix| + 1..], '_');
    Split(data, '_')[1]
  }

  /** The field of `<prefix>_<value>` is `value` when the value has no underscore. */
  lemma FieldAfterRoundTrip(prefix: string, value: string)
    requires '_' !in prefix && '_' !in value
    ensures StartsWith(prefix + "_" + value, prefix + "_")
    ensures FieldAfter(prefix, prefix + "_" + value) == value
  {
    var data := prefix + "_" + value;
    assert data[..|prefix + "_"|] == prefix + "_";
    assert data[|prefix| + 1..] == value;
    SplitPrefixed(prefix, '_', data);
    SplitNoSeparator(value, '_');
  }

  /** The parse of `set_timeframe_callback`, `set_sensitivity_callback` and
      `set_language_callback`: `<prefix>_<code>` selects `<code>`; other data selects nothing
      and only shows the menu. */
  function Choice(prefix: string, data: string): (r: Option<string>)
    requires '_' !in prefix
    ensures r.Some? <==> StartsWith(data, prefix + "_")
    ensures r.Some? ==> r.value == FieldAfter(prefix, data)
  {
    if StartsWith(data, prefix + "_") then Some(FieldAfter(prefix, data)) else None
  }

  // ---------------------------------------------------------------- labels

  const SensitivityNames: map<string, string> :=
    map["low" := "Низкая", "medium" := "Средняя", "high" := "Высокая"]

  const LanguageNames: map<string, string> :=
    map["ru" := "Русский", "en" := "English", "es" := "Español", "zh" := "中文"]

  /** `sensitivity_names.get(sensitivity, sensitivity)`. */
  function SensitivityLabel(code: string): (text: string)
    ensures code !in SensitivityNames ==> text == code
    ensures code in SensitivityNames ==> text == SensitivityNames[code] && text != code
  {
    if code in SensitivityNames then SensitivityNames[code] else code
  }

  /** `language_names.get(language, language)`. */
  function LanguageLabel(code: string): (text: string)
    ensures code !in LanguageNames ==> text == code
    ensures code in LanguageNames ==> text == LanguageNames[code] && text != code
  {
    if code in LanguageNames then LanguageNames[code] else code
  }

  // ---------------------------------------------------------------- indicators

  /** The handler's `indicator_map` from callback keys to indicator names. */
  const IndicatorKeyMap: map<string, string> := map[
    "rsi" := "RSI",
    "macd" := "MACD",
    "sma" := "SMA",
    "ema" := "EMA",
    "bb" := "Bollinger",
    "stoch" := "Stochastic",
    "ichi" := "Ichimoku",
    "atr" := "ATR"
  ]

  /** The list `indicator_all` selects. */
  const AllIndicators: IndicatorList := [Some("RSI"), Some("MACD"), Some("SMA"), Some("EMA"),
    Some("Bollinger"), Some("Stochastic"), Some("Ichimoku"), Some("ATR")]

  /** `indicator_map.get(key)`: None for an unknown key. */
  function LookUpIndicator(key: string): (r: Option<string>)
    ensures r.Some? <==> key in IndicatorKeyMap
    ensures r.Some? ==> r.value == IndicatorKeyMap[key] && Some(r.value) in AllIndicators
  {
    if key in IndicatorKeyMap then Some(IndicatorKeyMap[key]) else None
  }

  /** `[i for i in current if i != indicator]`. */
  function Without(current: IndicatorList, indicator: Option<string>): (r: IndicatorList)
    ensures indicator !in r
    ensures forall x :: x != indicator ==> multiset(r)[x] == multiset(current)[x]
    ensures |r| <= |current|
  {
    if current == [] then []
    else
      assert current == [current[0]] + current[1..];
      if current[0] == indicator then Without(current[1..], indicator)
      else [current[0]] + Without(current[1..], indicator)
  }

  /** The filter keeps the order of what it keeps: it distributes over concatenation. */
  lemma {:induction false} WithoutConcat(a: IndicatorList, b: IndicatorList, indicator: Option<string>)
    ensures Without(a + b, indicator) == Without(a, indicator) + Without(b, indicator)
  {
    if a != [] {
      assert (a + b)[0] == a[0] && (a + b)[1..] == a[1..] + b;
      WithoutConcat(a[1..], b, indicator);
    } else {
      assert a + b == b;
    }
  }

  /** Filtering out an absent indicator changes nothing. */
  lemma {:induction false} WithoutAbsent(current: IndicatorList, indicator: Option<string>)
    requires indicator !in current
    ensures Without(current, indicator) == current
  {
    if current != [] {
      WithoutAbsent(current[1..], indicator);
    }
  }

  /** The toggle of lines 95-99: remove every occurrence when present, else append. */
  function Toggle(current: IndicatorList, indicator: Option<string>): (r: IndicatorList)
    ensures indicator in current ==>
              indicator !in r && forall x :: x != indicator ==> multiset(r)[x] == multiset(current)[x]
    ensures indicator !in current ==> r == current + [indicator]
  {
    if indicator in current then Without(current, indicator) else current + [indicator]
  }

  /** Toggling an absent indicator twice gives the original list back. */
  lemma ToggleTwice(current: IndicatorList, indicator: Option<string>)
    requires indicator !in current
    ensures Toggle(Toggle(current, indicator), indicator) == current
  {
    WithoutConcat(current, [indicator], indicator);
    WithoutAbsent(current, indicator);
    assert Without([indicator], indicator) == [];
  }

  predicate Distinct(s: IndicatorList) {
    forall i, j :: 0 <= i < j < |s| ==> s[i] != s[j]
  }

  lemma {:induction false} WithoutKeepsDistinct(current: IndicatorList, indicator: Option<string>)
    requires Distinct(current)
    ensures Distinct(Without(current, indicator))
  {
    if current != [] {
      WithoutKeepsDistinct(current[1..], indicator);
      if current[0] != indicator {
        var rest := Without(current[1..], indicator);
        forall j | 0 <= j < |rest| ensures rest[j] != current[0] {
          assert multiset(rest)[current[0]] == multiset(current[1..])[current[0]];
          assert current[0] !in current[1..];
          assert rest[j] in multiset(rest);
        }
      }
    }
  }

  /** A list without duplicates stays without duplicates. */
  lemma ToggleKeepsDistinct(current: IndicatorList, indicator: Option<string>)
    requires Distinct(current)
    ensures Distinct(Toggle(current, indicator))
  {
    if indicator in current {
      WithoutKeepsDistinct(current, indicator);
    }
  }

  /** The new indicator list of `set_indicators_callback`, or None when the data does not
      start with `indicator_` and only the menu is shown. */
  function IndicatorsChoice(data: string, current: IndicatorList): (r: Option<IndicatorList>)
    ensures r.Some? <==> StartsWith(data, "indicator_")
    ensures r.Some? && FieldAfter("indicator", data) == "all" ==> r.value == AllIndicators
    ensures r.Some? && FieldAfter("indicator", data) == "none" ==> r.value == []
    ensures r.Some? && FieldAfter("indicator", data) !in {"all", "none"} ==>
              r.value == Toggle(current, LookUpIndicator(FieldAfter("indicator", data)))
  {
    if !StartsWith(data, "indicator_") then None
    else
      var name := FieldAfter("indicator", data);
      if name == "all" then Some(AllIndicators)
      else if name == "none" then Some([])
      else Some(Toggle(current, LookUpIndicator(name)))
  }

  /** An unknown key looks up None, which is appended to the stored list. */
  lemma UnknownKeyAppendsNull(key: string, current: IndicatorList)
    requires '_' !in key && key !in IndicatorKeyMap && key != "all" && key != "none"
    requires None !in current
    ensures IndicatorsChoice("indicator_" + key, current) == Some(current + [None])
  {
    FieldAfterRoundTrip("indicator", key);
  }

  // ---------------------------------------------------------------- handlers

  /** The effect shared by the handlers: look the Telegram user up and merge `update` into
      its settings. A user not yet stored makes `get_or_create_user` raise, and nothing is
      stored. */
  method StoreSettings(db: Database, telegramId: int, update: Settings) returns (stored: bool)
    requires db.Valid()
    modifies db
    ensures db.Valid()
    ensures db.predictions == old(db.predictions) && db.stats == old(db.stats)
    ensures !stored ==> db.users == old(db.users)
    ensures stored <==> exists j :: 0 <= j < |old(db.users)| && old(db.users)[j].telegramId == telegramId
    ensures stored ==>
              exists i :: 0 <= i < |old(db.users)| && old(db.users)[i].telegramId == telegramId &&
                db.users == old(db.users)[i := old(db.users)[i].(settings :=
                                             MergeSettings(old(db.users)[i].settings, update))]
  {
    var lookup := db.GetOrCreateUser(telegramId);
    if lookup.NameError? {
      return false;
    }
    ghost var i :| 0 <= i < |db.users| && db.users[i] == lookup.user &&
                   lookup.user.telegramId == telegramId;
    ghost var before := db.users;
    var updated := db.UpdateUserSettings(lookup.user.id, update);
    stored := true;
    ghost var k :| 0 <= k < |before| && before[k].id == lookup.user.id &&
                   updated.value == before[k].(settings := MergeSettings(before[k].settings, update)) &&
                   db.users == before[k := updated.value];
    assert k == i;
  }

  /** What a settings callback does: show the menu, store a value, stop on the exception
      `get_or_create_user` raises for a user not yet stored, or store a value and then stop
      on an exception raised while writing the reply. */
  datatype Outcome<T> = Menu | Updated(value: T) | Raised | StoredThenRaised(value: T)

  /** `set_timeframe_callback`: stores the code of `timeframe_<code>` as the timeframe. */
  method SetTimeframeCallback(db: Database, telegramId: int, data: string)
    returns (outcome: Outcome<string>)
    requires db.Valid()
    modifies db
    ensures db.Valid()
    ensures db.predictions == old(db.predictions) && db.stats == old(db.stats)
    ensures !StartsWith(data, "timeframe_") ==> outcome.Menu? && db.users == old(db.users)
    ensures StartsWith(data, "timeframe_") ==>
              (outcome.Updated? || outcome.Raised?) &&
              (outcome.Raised? <==>
                 forall j :: 0 <= j < |old(db.users)| ==> old(db.users)[j].telegramId != telegramId)
    ensures outcome.Raised? ==> db.users == old(db.users)
    ensures outcome.Updated? ==>
              outcome.value == FieldAfter("timeframe", data) &&
              exists i :: 0 <= i < |old(db.users)| && old(db.users)[i].telegramId == telegramId &&
                db.users == old(db.users)[i := old(db.users)[i].(settings :=
                  MergeSettings(old(db.users)[i].settings, map["timeframe" := Text(outcome.value)]))]
  {
    var choice := Choice("timeframe", data);
    if choice.None? {
      return Menu;
    }
    var stored := StoreSettings(db, telegramId, map["timeframe" := Text(choice.value)]);
    outcome := if stored then Updated(choice.value) else Raised;
  }

  /** `set_indicators_callback`: looks the user up first, then either shows the menu with the
      current list or stores the new list. The reply joins the new list with `', '`, which
      raises TypeError after the store when the list holds the None of an unknown key. */
  method SetIndicatorsCallback(db: Database, telegramId: int, data: string)
    returns (outcome: Outcome<IndicatorList>)
    requires db.Valid()
    modifies db
    ensures db.Valid()
    ensures db.predictions == old(db.predictions) && db.stats == old(db.stats)
    ensures outcome.Raised? <==>
              forall j :: 0 <= j < |old(db.users)| ==> old(db.users)[j].telegramId != telegramId
    ensures !StartsWith(data, "indicator_") ==>
              (outcome.Menu? || outcome.Raised?) && db.users == old(db.users)
    ensures StartsWith(data, "indicator_") && !outcome.Raised? ==>
              outcome.Updated? || outcome.StoredThenRaised?
    ensures outcome.Raised? ==> db.users == old(db.users)
    ensures outcome.Updated? || outcome.StoredThenRaised? ==>
              (outcome.StoredThenRaised? <==> None in outcome.value) &&
              exists i :: 0 <= i < |old(db.users)| && old(db.users)[i].telegramId == telegramId &&
                Some(outcome.value) == IndicatorsChoice(data, IndicatorsSetting(old(db.users)[i].settings)) &&
                db.users == old(db.users)[i := old(db.users)[i].(settings :=
                  MergeSettings(old(db.users)[i].settings, map["indicators" := Names(outcome.value)]))]
  {
    ghost var before := db.users;
    var lookup := db.GetOrCreateUser(telegramId);
    if lookup.NameError? {
      return Raised;
    }
    ghost var i :| 0 <= i < |db.users| && db.users[i] == lookup.user &&
                   lookup.user.telegramId == telegramId;
    var current := IndicatorsSetting(lookup.user.settings);
    var choice := IndicatorsChoice(data, current);
    if choice.None? {
      return Menu;
    }
    var updated := db.UpdateUserSettings(lookup.user.id, map["indicators" := Names(choice.value)]);
    ghost var k :| 0 <= k < |before| && before[k].id == lookup.user.id &&
                   updated.value == before[k].(settings := MergeSettings(before[k].settings,
                                                 map["indicators" := Names(choice.value)])) &&
                   db.users == before[k := updated.value];
    assert k == i;
    outcome := if None in choice.value then StoredThenRaised(choice.value) else Updated(choice.value);
  }

  /** `set_sensitivity_callback`: stores the code of `sensitivity_<code>` as the sensitivity
      and echoes its label. */
  method SetSensitivityCallback(db: Database, telegramId: int, data: string)
    returns (outcome: Outcome<string>)
    requires db.Valid()
    modifies db
    ensures db.Valid()
    ensures db.predictions == old(db.predictions) && db.stats == old(db.stats)
    ensures !StartsWith(data, "sensitivity_") ==> outcome.Menu? && db.users == old(db.users)
    ensures StartsWith(data, "sensitivity_") ==>
              (outcome.Updated? || outcome.Raised?) &&
              (outcome.Raised? <==>
                 forall j :: 0 <= j < |old(db.users)| ==> old(db.users)[j].telegramId != telegramId)
    ensures outcome.Raised? ==> db.users == old(db.users)
    ensures outcome.Updated? ==>
              var code := FieldAfter("sensitivity", data);
              outcome.value == SensitivityLabel(code) &&
              exists i :: 0 <= i < |old(db.users)| && old(db.users)[i].telegramId == telegramId &&
                db.users == old(db.users)[i := old(db.users)[i].(settings :=
                  MergeSettings(old(db.users)[i].settings, map["sensitivity" := Text(code)]))]
  {
    var choice := Choice("sensitivity", data);
    if choice.None? {
      return Menu;
    }
    var stored := StoreSettings(db, telegramId, map["sensitivity" := Text(choice.value)]);
    outcome := if stored then Updated(SensitivityLabel(choice.value)) else Raised;
  }

  /** `set_language_callback`: stores the code of `language_<code>` as the language and
      echoes its label. */
  method SetLanguageCallback(db: Database, telegramId: int, data: string)
    returns (outcome: Outcome<string>)
    requires db.Valid()
    modifies db
    ensures db.Valid()
    ensures db.predictions == old(db.predictions) && db.stats == old(db.stats)
    ensures !StartsWith(data, "language_") ==> outcome.Menu? && db.users == old(db.users)
    ensures StartsWith(data, "language_") ==>
              (outcome.Updated? || outcome.Raised?) &&
              (outcome.Raised? <==>
                 forall j :: 0 <= j < |old(db.users)| ==> old(db.users)[j].telegramId != telegramId)
    ensures outcome.Raised? ==> db.users == old(db.users)
    ensures outcome.Updated? ==>
              var code := FieldAfter("language", data);
              outcome.value == LanguageLabel(code) &&
              exists i :: 0 <= i < |old(db.users)| && old(db.users)[i].telegramId == telegramId &&
                db.users == old(db.users)[i := old(db.users)[i].(settings :=
                  MergeSettings(old(db.users)[i].settings, map["language" := Text(code)]))]
  {
    var choice := Choice("language", data);
    if choice.None? {
      return Menu;
    }
    var stored := StoreSettings(db, telegramId, map["language" := Text(choice.value)]);
    outcome := if stored then Updated(LanguageLabel(choice.value)) else Raised;
  }
}

=== FILE: train_model.dfy ===
/** The data preparation of models/train_model.py: the candle pattern columns, the target
    rule, the choice of feature columns, the sliding windows fed to the LSTM and the
    unshuffled 80/20 split. Fetching, the talib columns, scaling and training are not
    modelled. */
module TrainModel {
  import opened Common

  /** One row of the price frame. */
  datatype Row = Row(open: real, high: real, low: real, close: real)

  function Body(r: Row): real { Abs(r.close - r.open) }
  function LowerShadow(r: Row): real { Min(r.open, r.close) - r.low }
  function UpperShadow(r: Row): real { r.high - Max(r.open, r.close) }

  /** `_detect_hammer` for one row: a long lower shadow, a short upper shadow, bullish. */
  function IsHammer(r: Row): (flag: int)
    ensures flag == 0 || flag == 1
    ensures flag == 1 <==>
              LowerShadow(r) > 2.0 * Body(r) && UpperShadow(r) < Body(r) * 0.3 && r.close > r.open
  {
    if LowerShadow(r) > 2.0 * Body(r) && UpperShadow(r) < Body(r) * 0.3 && r.close > r.open
    then 1 else 0
  }

  /** A hammer has a real body, opens above its low, and when the high is at least the top
      of the body its upper shadow is shorter than a third of the body. */
  lemma HammerShape(r: Row)
    requires IsHammer(r) == 1
    ensures Body(r) > 0.0 && Body(r) == r.close - r.open
    ensures r.low < r.open
    ensures r.high >= Max(r.open, r.close) ==> 0.0 <= UpperShadow(r) < Body(r) * 0.3
  {
  }

  /** `_detect_doji` for one row: the body is under a tenth of a positive range. A zero range
      divides to a non-number in pandas, which the second test discards. */
  function IsDoji(r: Row): (flag: int)
    ensures flag == 0 || flag == 1
    ensures flag == 1 ==> Range(r) > 0.0
  {
    if Range(r) > 0.0 && Body(r) / Range(r) < 0.1 then 1 else 0
  }

  function Range(r: Row): real { r.high - r.low }

  /** The doji test without the division. */
  lemma DojiWithoutDivision(r: Row)
    ensures IsDoji(r) == 1 <==> Range(r) > 0.0 && Body(r) < 0.1 * Range(r)
  {
    if Range(r) > 0.0 {
      var q := Body(r) / Range(r);
      assert q * Range(r) == Body(r);
      if q < 0.1 {
        ScaleBelow(q, 0.1, Range(r));
        assert IsDoji(r) == 1;
      } else {
        ScaleBelow(0.1, q, Range(r));
        assert IsDoji(r) == 0;
      }
    } else {
      assert IsDoji(r) == 0;
    }
  }

  lemma ScaleBelow(a: real, b: real, c: real)
    requires a <= b && c > 0.0
    ensures a * c <= b * c && (a < b ==> a * c < b * c)
  {
  }

  /** `(close.shift(-5) > close).astype(int)`: a comparison with the missing value past the
      end is False, so the last five rows are 0. */
  function Targets(closes: seq<real>): (t: seq<int>)
    ensures |t| == |closes|
    ensures forall i :: 0 <= i < |closes| ==>
              (t[i] == 1 <==> i + 5 < |closes| && closes[i + 5] > closes[i]) &&
              (t[i] == 0 || t[i] == 1)
  {
    seq(|closes|, i requires 0 <= i < |closes| =>
      if i + 5 < |closes| && closes[i + 5] > closes[i] then 1 else 0)
  }

  // ---------------------------------------------------------------- available_cols

  const FeatureCols: seq<string> := ["returns", "volatility", "rsi", "macd", "macd_hist",
    "bb_position", "bb_width", "stoch_k", "atr", "volume_ratio", "is_hammer", "is_doji"]

  /** `[col for col in feature_cols if col in df.columns]`. */
  function AvailableCols(featureCols: seq<string>, columns: set<string>): (cols: seq<string>)
    ensures forall c :: c in cols <==> c in featureCols && c in columns
    ensures |cols| <= |featureCols|
  {
    if featureCols == [] then []
    else
      var rest := AvailableCols(featureCols[1..], columns);
      assert featureCols == [featureCols[0]] + featureCols[1..];
      if featureCols[0] in columns then [featureCols[0]] + rest else rest
  }

  /** The comprehension keeps the order of the feature list: it distributes over
      concatenation. */
  lemma {:induction false} AvailableColsConcat(a: seq<string>, b: seq<string>, columns: set<string>)
    ensures AvailableCols(a + b, columns) == AvailableCols(a, columns) + AvailableCols(b, columns)
  {
    if a == [] {
      assert a + b == b;
    } else {
      assert (a + b)[0] == a[0] && (a + b)[1..] == a[1..] + b;
      AvailableColsConcat(a[1..], b, columns);
    }
  }

  /** With every column present nothing is dropped. */
  lemma {:induction false} AllColsAvailable(featureCols: seq<string>, columns: set<string>)
    requires forall c :: c in featureCols ==> c in columns
    ensures AvailableCols(featureCols, columns) == featureCols
  {
    if featureCols != [] {
      AllColsAvailable(featureCols[1..], columns);
      assert featureCols == [featureCols[0]] + featureCols[1..];
    }
  }

  // ---------------------------------------------------------------- sequences

  /** The window loop of `prepare_data`: for every `i` from `sequenceLength` on, the
      `sequenceLength` rows before `i` and the label of row `i`. */
  method PrepareSequences<T, L>(xs: seq<T>, ys: seq<L>, sequenceLength: nat)
    returns (windows: seq<seq<T>>, labels: seq<L>)
    requires |xs| == |ys|
    ensures |windows| == |labels| == if |xs| > sequenceLength then |xs| - sequenceLength else 0
    ensures forall k :: 0 <= k < |windows| ==>
              |windows[k]| == sequenceLength &&
              windows[k] == xs[k..k + sequenceLength] && labels[k] == ys[k + sequenceLength]
  {
    windows, labels := [], [];
    var i := sequenceLength;
    while i < |xs|
      invariant sequenceLength <= i && (i == sequenceLength || i <= |xs|)
      invariant |windows| == |labels| == i - sequenceLength
      invariant forall k :: 0 <= k < |windows| ==>
                  windows[k] == xs[k..k + sequenceLength] && labels[k] == ys[k + sequenceLength]
    {
      windows := windows + [xs[i - sequenceLength..i]];
      labels := labels + [ys[i]];
      i := i + 1;
    }
  }

  // ---------------------------------------------------------------- split

  /** `int(len * 0.8)`. */
  function SplitIndex(n: nat): (k: nat)
    ensures k <= n
    ensures 5 * k <= 4 * n < 5 * k + 5
  {
    (4 * n) / 5
  }

  /** The size `train_test_split(test_size=0.2, shuffle=False)` keeps for training:
      `n - ceil(0.2 n)`. */
  function TrainSize(n: nat): (k: nat)
    ensures k <= n
    ensures n <= 5 * (n - k) < n + 5
  {
    n - (n + 4) / 5
  }

  /** The two splits of the script cut at the same place. */
  lemma SplitsAgree(n: nat)
    ensures TrainSize(n) == SplitIndex(n)
  {
    var q, r := n / 5, n % 5;
    assert n == 5 * q + r;
    assert (n + 4) / 5 == q + (if r == 0 then 0 else 1);
    assert (4 * n) / 5 == 4 * q + (if r == 0 then 0 else r - 1);
  }

  /** The unshuffled split: a training prefix and a test suffix that together give back the
      sequence, with about a fifth of it in the test part. */
  function SplitTrainTest<T>(s: seq<T>): (parts: (seq<T>, seq<T>))
    ensures parts.0 + parts.1 == s
    ensures |parts.0| == SplitIndex(|s|)
    ensures 5 * |parts.1| >= |s| && 5 * |parts.1| < |s| + 5
  {
    (s[..SplitIndex(|s|)], s[SplitIndex(|s|)..])
  }
}
